=== FILE: README.md ===
# Freezer inventory — a Dafny model

This project models the core of a laboratory freezer-inventory service and
its browser page:

- the **specimen link service** (`backend/edna.go`, `backend/fish.go`) — the
  table of links between a specimen name a user typed and the box it is
  stored in, resolved against an external catalogue. The two files are the
  same service for two kinds of specimen, so they are modelled once,
  parameterised by `Kind` (module `SpecimenLinks`, properties in
  `LinkProperties`, worked examples in `LinkScenarios`);
- the **box table and location graph** (`backend/boxes.go`) — inserting,
  deleting, updating and bulk-moving boxes, listing the boxes of a freezer,
  and the box → freezer → freezer-location join (module `Locations`);
- the **paged room listing** (`backend/rooms.go`) — normalising `limit`,
  `offset` and `search`, numbering the statement's placeholders, and the
  filtered, ordered, windowed page it selects (module `RoomPages`, with the
  Go integer parser in `Decimal` and the text predicates in `Text`);
- the **client-side inventory tree** (`static/inventory.js`) — moving a box
  between shelves (given both shelves, or by searching the tree for ids),
  moving a sample between boxes, the "every other shelf / box" target lists
  (module `InventoryTree`), and the breadcrumb navigation stack (module
  `Navigation`).

Database tables are sequences of immutable rows, and every handler is a pure
function from the tables and its query parameters to the new tables and a
typed outcome. HTTP statuses become `Failure` values: `BadRequest` is 400,
`NotFound` is 404 and `ServerError` is 500. Whether the database accepts a
statement is the parameter `store: Store` (`Available` or `Failing`). The
listings take a second parameter `stream: Stream`: the rows of an accepted
query arrive `Whole`, or the stream `BreaksAfter(n)` rows. An
integer query parameter is an `Option<int>`, where `None` stands for the
empty string. The external specimen catalogues are an arbitrary function
`Catalog`. Generic sequence operations live in `Seqs`: filter, count,
conditional map, first index, removal at an index, and the nested-loop
join `ConcatMap`.

Two behaviours of the handlers are worth knowing:

- Update and delete address link rows by the typed name, but no handler
  keeps that name unique: insert and rename accept a name another row
  already has, and an update or delete then touches every row with it.
  `LinkProperties.InsertExistingDuplicates` and
  `LinkProperties.RenameOntoExistingDuplicates` show how duplicates arise,
  and `LinkProperties.InsertFreshKeepsUnique` and
  `LinkProperties.DeleteKeepsUnique` show what keeps names unique.
- Some handlers answer an empty parameter with 500, not 400: list-by-box,
  already-in-a-box and boxes-by-freezer. The bulk move has no emptiness
  check at all; the database rejects the empty value.
- The listings read rows until none are left and never ask the row stream
  whether it ended in an error. An error the database raises while it runs
  the query therefore answers 200 with the rows read so far. A box or
  freezer id that is no number is such an error: it yields an empty
  listing, and the already-in-a-box check answers "0" even for a stored
  name (`LinkProperties.BrokenStreamHidesStored`). Insert, update and
  delete get the error back from the call itself and answer 500.

## Model

| member | source | states |
|---|---|---|
| Wrappers.Received | backend/edna.go:54-72 | the rows a handler reads are the first rows the statement selects: all of them over a whole stream, and min(n, all) of them over a stream broken after n rows |
| SpecimenLinks.CheckExists | backend/edna.go:79-91 | the catalogue's (id, name) reply is handed on unchanged, the (-1, "") not-found pair included |
| SpecimenLinks.InsertLink | backend/edna.go:149-187 | an empty name or box id is a BadRequest before the catalogue is asked, with no row written; with both present a failing store is a ServerError that writes no row, and an available store succeeds, appending exactly one row and leaving the others untouched; the row holds the typed name and the box, and its resolved id is absent exactly when the catalogue said -1; the outcome is Unresolved iff -1, and MatchedTo(canonical) iff found under a different name |
| SpecimenLinks.InsertMessage | backend/edna.go:182-186 | the insert response body is empty exactly for an exact catalogue match; otherwise it starts with the kind's title; a match under another name quotes the catalogue's name right after "ID matched to: ", and the message for an unresolved name does not start that way |
| SpecimenLinks.InsertMessageTells | backend/edna.go:182-186 | different insert outcomes never give the same message, so the client can tell exact match, match under which name, and unresolved apart |
| SpecimenLinks.UpdateLink | backend/edna.go:190-226 | an empty box id or name is a BadRequest; with both present, a failing store is a ServerError, and on an available store the result is NotFound iff no row has the old name and success otherwise; on success every row with the old name gets the new box (and the new name when one is given), keeps its resolved id, and every other row is unchanged; a failure changes nothing |
| SpecimenLinks.DeleteLink | backend/edna.go:228-250 | an empty name is a BadRequest; with a name, a failing store is a ServerError that changes nothing, and an available store succeeds, leaving exactly the rows with other names, each with as many copies as before, and no row with the name |
| SpecimenLinks.LinksByBox | backend/edna.go:30-75 | an empty box id or a failing store is answered with ServerError; otherwise the answer is a success, every row of which is a row of the table with that box id; over a whole stream it holds exactly those rows, unresolved ones included, each as many times as the table holds it; over a broken stream it holds no more rows than were read |
| SpecimenLinks.LinksByBoxBroken | backend/edna.go:54-73 | a stream broken after n rows answers the first min(n, all) rows of the whole listing, with no error |
| SpecimenLinks.LocationsOfMember | backend/edna.go:103 | a row of the link → box → freezer → location join is exactly the summary of a chain starting from a link with that name |
| SpecimenLinks.LocationsOfEmpty | backend/edna.go:103 | the join is empty iff no link with that name reaches a freezer location |
| SpecimenLinks.AlreadyInABox | backend/edna.go:93-146 | an empty name or a failing store is a ServerError, and otherwise the answer is a success; it is NotStored iff no link with the name reaches a location or the stream breaks before its first row, and otherwise the first joined row, which summarises a real chain |
| SpecimenLinks.AlreadyInABoxBroken | backend/edna.go:115-139 | once the stream has delivered a row, the check answers as over the whole stream |
| SpecimenLinks.AlreadyMessage | backend/edna.go:139-145 | the response body is "0" exactly when nothing is stored, so no location message can be read as "not stored"; a location message names the kind, then the box right after "already exists in: Box: "; it holds the freezer name with the model in parentheses after ", Freezer: ", the shelf number between ", Shelf: " and ", Floor: ", the floor between ", Floor: " and ", Lab: ", and ends with ", Lab: " and the lab |
| LinkProperties.BrokenStreamHidesStored | backend/fish.go:106-145 | a name whose link reaches a location is found over a whole stream, yet answered NotStored, body "0", when the stream breaks before its first row |
| LinkProperties.InsertThenListed | backend/fish.go:149-187 | a successful insert is listed under its box |
| LinkProperties.InsertThenFound | backend/fish.go:93-146 | after inserting a link to a box that reaches a location, the already-in-a-box check no longer answers NotStored |
| LinkProperties.DeleteLinkIdempotent | backend/fish.go:228-250 | deleting a name twice leaves the table as deleting it once |
| LinkProperties.RenameMovesLink | backend/fish.go:190-226 | renaming moves every link off the old name: the old name is then stored nowhere and the new one is found |
| LinkProperties.InsertFreshKeepsUnique | backend/fish.go:163-169 | inserting a name no row has keeps names unique |
| LinkProperties.NotStoredIsNotFresh | backend/fish.go:93-187 | a link whose box is gone makes the already-in-a-box check answer NotStored although the name is in the table, and inserting it again then duplicates the name |
| LinkProperties.InsertExistingDuplicates | backend/fish.go:153-169 | inserting a name some row already has breaks uniqueness; nothing rejects it |
| LinkProperties.DeleteKeepsUnique | backend/fish.go:237-242 | deleting keeps a unique table unique |
| LinkProperties.RenameOntoExistingDuplicates | backend/fish.go:204-206 | renaming onto a name another row has breaks uniqueness |
| LinkScenarios.UnresolvedEdnaIsRecordedAndFound | backend/edna.go:163-169 | a name the catalogue does not know is stored without an id, reported Unresolved, and found in its box's location |
| LinkScenarios.AliasedFishIsLinked | backend/fish.go:163-186 | a fish name the catalogue knows under another name is stored with the catalogue id and the typed name, and reported as MatchedTo the canonical name |
| Locations.GetAllBoxes | backend/boxes.go:48-83 | a store failure is a ServerError, and otherwise the answer is a success; every row is the row of a box whose freezer and that freezer's location both exist, carrying the chain's lab, floor and freezer name; over a whole stream every such chain gives a row, and over a broken one no more rows than were read come back |
| Locations.GetAllBoxesBroken | backend/boxes.go:60-82 | a stream broken after n rows answers the first min(n, all) rows of the whole listing, with no error |
| Locations.GetBoxesByFreezer | backend/boxes.go:85-131 | an empty freezer id or a failing store is a ServerError; otherwise the answer is a success, every box of which is a box of that freezer; over a whole stream it holds exactly the boxes of that freezer, each as many times as the table holds it; over a broken stream no more boxes than were read |
| Locations.GetBoxesByFreezerBroken | backend/boxes.go:109-129 | a stream broken after n rows answers the first min(n, all) boxes of the whole listing, with no error |
| Locations.InsertBox | backend/boxes.go:134-158 | a missing freezer id, name or shelf is a BadRequest; with all present a failing store is a ServerError, and an available store succeeds, appending exactly one box with the given fields; a failure changes nothing |
| Locations.DeleteBox | backend/boxes.go:161-183 | an empty box id is a BadRequest; with an id, a failing store is a ServerError that changes nothing, and an available store succeeds, leaving exactly the boxes with other ids, each with as many copies as before |
| Locations.UpdateBox | backend/boxes.go:186-216 | any missing field is a BadRequest; with all four present a failing store is a ServerError, and on an available store the result is NotFound iff no box has the id and success otherwise; success needs an available store; on success the box with the id gets the new freezer, name and shelf and every other box is unchanged; a failure changes nothing |
| Locations.MoveAllBoxesToShelf | backend/boxes.go:28-46 | every box on (old shelf, old freezer) moves to (new shelf, new freezer); all other boxes are unchanged; count, ids and names are preserved; success even when no box matches; a missing parameter is a ServerError |
| Locations.MoveAllBoxesToShelfCounts | backend/boxes.go:34-35 | after a move onto a different shelf the old shelf is empty, and the new shelf holds its old boxes plus all the moved ones |
| Locations.DeleteBoxIdempotent | backend/boxes.go:171-174 | deleting a box twice is deleting it once |
| Locations.InsertBoxThenList | backend/boxes.go:146-149 | a box just inserted is listed under its freezer |
| Locations.JoinRowMember | backend/boxes.go:49 | a row of the inner join is exactly a box with a chain to an existing freezer and location |
| RoomPages.ParseLimit | backend/rooms.go:25-32 | the limit is always in 1..1000; a numeric value in that range is taken as given; anything else gives 200 |
| RoomPages.ParseOffset | backend/rooms.go:26-37 | the offset is never negative; a numeric non-negative value is taken as given; anything else gives 0 |
| RoomPages.LimitHonoured | backend/rooms.go:28-32 | any limit 1..1000 written in decimal is honoured exactly |
| RoomPages.OffsetHonoured | backend/rooms.go:33-37 | any non-negative 64-bit offset written in decimal is honoured exactly |
| RoomPages.PlanQuery | backend/rooms.go:40-47 | with a search the arguments are the pattern, the limit and the offset, and LIMIT/OFFSET use $2/$3; without one they are the limit and the offset with $1/$2; each placeholder names the argument holding its value |
| RoomPages.GetFreezerRooms | backend/rooms.go:18-81 | a store failure is a ServerError, and otherwise the answer is a success of at most `limit` rooms, ordered by floor and drawn from the table, and with a search every room has it in its lab or floor, ignoring case; over a whole stream the page is the window at `offset` over a floor ordering of every matching room, so it holds min(limit, matches − offset) rooms, none past the end; over a broken stream no more rooms than were read |
| RoomPages.GetFreezerRoomsBroken | backend/rooms.go:60-80 | a stream broken after n rows answers the first min(n, all) rooms of the whole page, with no error |
| RoomPages.PrefixOfPage | backend/rooms.go:60-78 | the rooms read first from a sorted page drawn from the table are themselves sorted and drawn from the table |
| RoomPages.PageOfOrdering | backend/rooms.go:40-47 | the selected page has exactly the window's size over the matching rooms, and is that window over a floor ordering of them |
| RoomPages.SortByFloor | backend/rooms.go:46 | `ORDER BY floor` yields a permutation of its input ordered by floor |
| RoomPages.PagesTile | backend/rooms.go:46 | consecutive windows of sizes a and b concatenate to the window of size a + b |
| Decimal.AtoiItoa | backend/rooms.go:29 | the integer parser reads back every 64-bit integer written in decimal |
| InventoryTree.MoveBoxToShelf | static/inventory.js:255-260 | a box absent from the source shelf changes nothing; otherwise the first box with the id leaves the source and is appended to the target; the two shelves together hold the same boxes |
| InventoryTree.MoveSampleToBox | static/inventory.js:326-331 | the same for samples between boxes; the number of samples is conserved |
| InventoryTree.FindShelf | static/inventory.js:174-187 | the shelf found is the first one satisfying the test in room → freezer → shelf order; none is found iff no shelf satisfies it |
| InventoryTree.MoveBoxToShelfById | static/inventory.js:171-195 | nothing changes unless both a shelf with the target id and a shelf holding the box exist; the source is the first shelf holding the box, and the target the first shelf with the id; the box leaves the source and is appended to the target, and only those two shelves' box lists change: every other shelf, and every id and name of rooms, freezers and shelves, stays as it was; the multiset of all boxes of the tree is conserved |
| InventoryTree.MoveBetweenConserves | static/inventory.js:188-194 | taking a box off one shelf and appending it to another conserves the multiset of all boxes of the tree |
| InventoryTree.SetShelfSkeleton | static/inventory.js:191-193 | replacing a shelf by one with the same id and name leaves every id and name of rooms, freezers and shelves as it was |
| InventoryTree.SetShelfBoxes | static/inventory.js:191-193 | replacing one shelf changes the tree's boxes by exactly that shelf's boxes |
| InventoryTree.CurrentShelf | static/inventory.js:204-209 | the box's current shelf is the first shelf of the freezer holding the box (the search stops there), and there is none iff no shelf of the freezer holds it |
| InventoryTree.AllShelfOptionsMember | static/inventory.js:213-225 | an option is in the list exactly when it is the "room / freezer / shelf" entry of a shelf of the tree |
| InventoryTree.AllShelfOptionsCount | static/inventory.js:213-225 | the list holds one option per shelf: as many options as the tree has shelves |
| InventoryTree.MoveBoxTargets | static/inventory.js:212-225 | the move-box targets are exactly the shelves of the tree whose id differs from the box's current shelf |
| InventoryTree.AllBoxOptionsMember | static/inventory.js:284-298 | an option is in the list exactly when it is the "room / freezer / shelf / box" entry of a box of the tree |
| InventoryTree.AllBoxOptionsCount | static/inventory.js:284-298 | the list holds one option per box: as many options as the tree has boxes |
| InventoryTree.MoveSampleTargets | static/inventory.js:283-298 | the move-sample targets are exactly the boxes of the tree whose id differs from the box on screen |
| Navigation.Render | static/inventory.js:11-24 | depths 0, 1, 2 and 3 show the room list, freezer list, shelf visual and sample list, each of the deepest entry; any deeper stack shows nothing |
| Navigation.OpenRoom | static/inventory.js:69-71 | clicking a room makes it the whole stack; the next render lists that room's freezers, under a single crumb naming the room |
| Navigation.OpenFreezer | static/inventory.js:84-86 | clicking a freezer pushes it on top of the unchanged stack; from the freezer list the next render shows its shelves; the crumb below it leads back to the stack before |
| Navigation.OpenBox | static/inventory.js:153-155 | clicking a box pushes it on top of the unchanged stack; from the shelf visual the next render lists its samples; the crumb below it leads back to the stack before |
| Navigation.Breadcrumbs | static/inventory.js:25-39 | one crumb per entry; every entry but the last is a link carrying its index, and the last is the current place |
| Navigation.ClickCrumb | static/inventory.js:49-51 | following crumb idx keeps the first idx + 1 entries, or the whole stack when it is shorter |
| Navigation.BackShortens | static/inventory.js:29-37 | every back link on screen leads to a strictly shorter stack that ends at the entry the link names |
| Navigation.CrumbsFromIndexed | static/inventory.js:29-37 | the crumb list holds entry k's crumb at position k |

## Left out

- Logging, JSON encoding, response headers and the text of error bodies are not modelled. Outcomes are typed values; only the success bodies of insert and already-in-a-box are modelled as strings.
- The catalogues `GetEDNAID` and `GetSpecimenID` belong to a library outside this repository. They are an arbitrary function, and their matching rules are not modelled.
- The database is not modelled: SQL text, its parsing, connectivity, and constraints such as foreign keys and integer conversion. For insert, update, delete and the bulk move each failure is one possible `Failing` store that leaves the tables unchanged. For the listings, an error the query call returns is a `Failing` store, and an error raised while the query runs, a non-numeric id among them, is a stream broken after the rows read so far. Which of the two a given database error is depends on the driver, and the model takes both as parameters.
- A listing with no rows is encoded as JSON `null`, not `[]`, because the handlers encode a nil slice. The model answers the empty sequence.
- A row the handler cannot scan into its record is a 500 in the source. The model's rows always fit their record, so this case does not arise.
- The id a new box row receives is a parameter `newId`, because the database sequence assigns it.
- Integer widths of stored columns are not modelled. Only the `limit`/`offset` parser keeps Go's 64-bit range.
- Join and filter output follows table order. SQL leaves that order unspecified without `ORDER BY`.
- Locations.GetAllBoxes: states which rows appear, not how many times. Box, freezer and location ids are primary keys in the database, and the model does not impose that, so a duplicated freezer id would give a box one row per copy.
- RoomPages.SortByFloor: `ORDER BY floor` is a stable sort by code-point order. The database collation and the order of equal floors are not modelled.
- RoomPages.GetFreezerRooms: `ILIKE` is ASCII case-insensitive substring search. `%` and `_` typed inside the search text, and case folding beyond ASCII, are not modelled.
- The `mglgo.Help()` call at the start of the room listing prints help text. It is not modelled.
- Races between concurrent requests, for example two inserts of the same name, are not modelled.
- `backend/freezers.go` is not part of this model; only the fields of its freezer record are used. `main.go` and `backend/db.go` are not part of it either: they hold the server setup, CORS and the connection pool.
- `static/script.js` is not part of this model: it is form and fetch glue around the handlers above. `static/generate_inventory.py` is not part of it either: it generates random test data.
- Not modelled from `static/inventory.js`: the HTML building, metadata display and alert dialogs, the drag-state variable, and the numeric shelf sort of the shelf visual.
- Navigation: JavaScript stack entries share objects with the tree, so a move shows through the stack. In the model the entries are copies; the well-formedness lemmas hold for the tree the stack was built from.
- InventoryTree.MoveBoxToShelf: the two shelves are different values. The target list never offers the box's own shelf, so the aliasing case of the source never reaches this function.

=== FILE: decimal.dfy ===
/** Decimal text of integers as Go's `strconv` reads and writes it on a
    64-bit platform: `Atoi` for the paging parameters, `Itoa` (and `%d`) for
    the placeholder numbers and the shelf in a location message. */
module Decimal {
  import opened Wrappers

  const MinInt64: int := -0x8000_0000_0000_0000
  const MaxInt64: int := 0x7fff_ffff_ffff_ffff

  predicate IsDigit(c: char)
  {
    '0' <= c <= '9'
  }

  predicate AllDigits(s: string)
  {
    forall i :: 0 <= i < |s| ==> IsDigit(s[i])
  }

  function DigitChar(d: nat): (c: char)
    requires d < 10
    ensures IsDigit(c)
  {
    "0123456789"[d]
  }

  /** The value of a string of decimal digits, most significant first. */
  function DigitsValue(s: string): (n: nat)
    requires AllDigits(s)
  {
    if s == [] then 0
    else DigitsValue(s[..|s| - 1]) * 10 + (s[|s| - 1] as int - '0' as int)
  }

  /** The shortest decimal digits of `n` (no leading zero). */
  function NatToDigits(n: nat): (s: string)
    ensures AllDigits(s) && |s| > 0
    ensures |s| > 1 ==> s[0] != '0'
    decreases n
  {
    if n < 10 then [DigitChar(n)] else NatToDigits(n / 10) + [DigitChar(n % 10)]
  }

  /** `strconv.Itoa` and `%d`: a minus sign for negatives, then the digits. */
  function Itoa(i: int): (s: string)
  {
    if i < 0 then "-" + NatToDigits(-i) else NatToDigits(i)
  }

  /** `strconv.Atoi`: an optional `+` or `-`, then at least one digit, and
      the value must fit in 64 bits; anything else is an error (`None`). */
  function Atoi(s: string): (r: Option<int>)
    ensures r.Some? ==> MinInt64 <= r.value <= MaxInt64
    ensures r.Some? ==> s != "" && (AllDigits(s) || ((s[0] == '+' || s[0] == '-') && AllDigits(s[1..])))
  {
    if s == "" then None
    else
      var negative := s[0] == '-';
      var digits := if s[0] == '+' || s[0] == '-' then s[1..] else s;
      if digits == "" || !AllDigits(digits) then None
      else
        var v: int := DigitsValue(digits);
        var n := if negative then -v else v;
        if MinInt64 <= n <= MaxInt64 then Some(n) else None
  }

  lemma {:induction false} DigitsRoundTrip(n: nat)
    ensures DigitsValue(NatToDigits(n)) == n
    decreases n
  {
    var s := NatToDigits(n);
    if n >= 10 {
      DigitsRoundTrip(n / 10);
      assert s[..|s| - 1] == NatToDigits(n / 10);
      assert s[|s| - 1] == DigitChar(n % 10);
    }
  }

  /** Reading back what `Itoa` wrote gives the same number, over the whole
      64-bit range. */
  lemma AtoiItoa(i: int)
    requires MinInt64 <= i <= MaxInt64
    ensures Atoi(Itoa(i)) == Some(i)
  {
    if i < 0 {
      AtoiItoaNegative(i);
    } else {
      AtoiItoaNatural(i);
    }
  }

  lemma AtoiItoaNegative(i: int)
    requires MinInt64 <= i < 0
    ensures Atoi(Itoa(i)) == Some(i)
  {
    var s := Itoa(i);
    DigitsRoundTrip(-i);
    assert s[0] == '-' && s[1..] == NatToDigits(-i);
  }

  lemma AtoiItoaNatural(i: int)
    requires 0 <= i <= MaxInt64
    ensures Atoi(Itoa(i)) == Some(i)
  {
    var s := Itoa(i);
    DigitsRoundTrip(i);
    assert s[0] != '+' && s[0] != '-';
  }
}

=== FILE: inventory.dfy ===
/** The client-side inventory tree of static/inventory.js: rooms hold
    freezers, freezers hold shelves, shelves hold boxes, boxes hold samples.
    The page edits this tree in place; here every edit returns a new tree.
    The tree comes from parsed JSON, so no two positions share an object. */
module InventoryTree {
  import opened Wrappers
  import opened Seqs

  datatype Sample = Sample(id: string, name: string)
  datatype Box = Box(id: string, name: string, samples: seq<Sample>)
  datatype Shelf = Shelf(id: string, name: string, boxes: seq<Box>)
  datatype Freezer = Freezer(id: string, name: string, shelves: seq<Shelf>)
  datatype Room = Room(id: string, name: string, freezers: seq<Freezer>)
  datatype Inventory = Inventory(rooms: seq<Room>)

  function BoxIs(boxId: string): Box -> bool
  {
    (b: Box) => b.id == boxId
  }

  function SampleIs(sampleId: string): Sample -> bool
  {
    (s: Sample) => s.id == sampleId
  }

  // ---------------------------------------------------------------------
  // Moves between two given containers

  /** moveBoxToShelf: takes the first box with `boxId` off `src` and puts it
      at the end of `dst`; a box not on `src` leaves both shelves alone.
      `src` and `dst` are different shelves: the target list never offers
      the box's own shelf. */
  function MoveBoxToShelf(boxId: string, src: Shelf, dst: Shelf): (r: (Shelf, Shelf))
    ensures FirstIndex(src.boxes, BoxIs(boxId)).None? ==> r == (src, dst)
    ensures FirstIndex(src.boxes, BoxIs(boxId)).Some? ==>
      var i := FirstIndex(src.boxes, BoxIs(boxId)).value;
      && r.0 == src.(boxes := src.boxes[..i] + src.boxes[i + 1..])
      && r.1 == dst.(boxes := dst.boxes + [src.boxes[i]])
    ensures multiset(r.0.boxes) + multiset(r.1.boxes) == multiset(src.boxes) + multiset(dst.boxes)
  {
    match FirstIndex(src.boxes, BoxIs(boxId))
    case None => (src, dst)
    case Some(i) =>
      var box := src.boxes[i];
      (src.(boxes := RemoveAt(src.boxes, i)), dst.(boxes := dst.boxes + [box]))
  }

  /** moveSampleToBox: the same move one level down. */
  function MoveSampleToBox(sampleId: string, src: Box, dst: Box): (r: (Box, Box))
    ensures FirstIndex(src.samples, SampleIs(sampleId)).None? ==> r == (src, dst)
    ensures FirstIndex(src.samples, SampleIs(sampleId)).Some? ==>
      var i := FirstIndex(src.samples, SampleIs(sampleId)).value;
      && r.0 == src.(samples := src.samples[..i] + src.samples[i + 1..])
      && r.1 == dst.(samples := dst.samples + [src.samples[i]])
    ensures multiset(r.0.samples) + multiset(r.1.samples) == multiset(src.samples) + multiset(dst.samples)
    ensures |r.0.samples| + |r.1.samples| == |src.samples| + |dst.samples|
  {
    match FirstIndex(src.samples, SampleIs(sampleId))
    case None => (src, dst)
    case Some(i) =>
      var sample := src.samples[i];
      (src.(samples := RemoveAt(src.samples, i)), dst.(samples := dst.samples + [sample]))
  }

  // ---------------------------------------------------------------------
  // Positions in the tree and the room/freezer/shelf traversal order

  datatype Pos = Pos(room: nat, freezer: nat, shelf: nat)

  predicate ValidPos(inv: Inventory, p: Pos)
  {
    && p.room < |inv.rooms|
    && p.freezer < |inv.rooms[p.room].freezers|
    && p.shelf < |inv.rooms[p.room].freezers[p.freezer].shelves|
  }

  function ShelfAt(inv: Inventory, p: Pos): Shelf
    requires ValidPos(inv, p)
  {
    inv.rooms[p.room].freezers[p.freezer].shelves[p.shelf]
  }

  /** `p` comes before `q` in the nested for-of traversal. */
  predicate Before(p: Pos, q: Pos)
  {
    || p.room < q.room
    || (p.room == q.room && p.freezer < q.freezer)
    || (p.room == q.room && p.freezer == q.freezer && p.shelf < q.shelf)
  }

  function FreezerHas(p: Shelf -> bool): Freezer -> bool
  {
    (f: Freezer) => FirstIndex(f.shelves, p).Some?
  }

  function RoomHas(p: Shelf -> bool): Room -> bool
  {
    (r: Room) => FirstIndex(r.freezers, FreezerHas(p)).Some?
  }

  /** The first shelf satisfying `p` in room → freezer → shelf order. */
  function FindShelf(inv: Inventory, p: Shelf -> bool): (r: Option<Pos>)
    ensures r.Some? ==> ValidPos(inv, r.value) && p(ShelfAt(inv, r.value))
    ensures r.Some? ==> forall q :: ValidPos(inv, q) && Before(q, r.value) ==> !p(ShelfAt(inv, q))
    ensures r.None? <==> forall q :: ValidPos(inv, q) ==> !p(ShelfAt(inv, q))
  {
    match FirstIndex(inv.rooms, RoomHas(p))
    case None =>
      forall q | ValidPos(inv, q)
        ensures !p(ShelfAt(inv, q))
      {
        NoShelfInRoom(inv.rooms[q.room], p, q.freezer, q.shelf);
      }
      None
    case Some(ri) =>
      var room := inv.rooms[ri];
      var fi := FirstIndex(room.freezers, FreezerHas(p)).value;
      var si := FirstIndex(room.freezers[fi].shelves, p).value;
      var found := Pos(ri, fi, si);
      forall q | ValidPos(inv, q) && Before(q, found)
        ensures !p(ShelfAt(inv, q))
      {
        if q.room < ri {
          NoShelfInRoom(inv.rooms[q.room], p, q.freezer, q.shelf);
        } else if q.freezer < fi {
          assert !FreezerHas(p)(room.freezers[q.freezer]);
        }
      }
      Some(found)
  }

  lemma NoShelfInRoom(room: Room, p: Shelf -> bool, fi: nat, si: nat)
    requires !RoomHas(p)(room)
    requires fi < |room.freezers| && si < |room.freezers[fi].shelves|
    ensures !p(room.freezers[fi].shelves[si])
  {
    assert !FreezerHas(p)(room.freezers[fi]);
  }

  /** The tree with the shelf at `p` replaced. */
  function SetShelf(inv: Inventory, p: Pos, shelf: Shelf): (r: Inventory)
    requires ValidPos(inv, p)
    ensures forall q :: ValidPos(r, q) <==> ValidPos(inv, q)
    ensures ValidPos(r, p) && ShelfAt(r, p) == shelf
    ensures forall q :: ValidPos(inv, q) && q != p ==> ShelfAt(r, q) == ShelfAt(inv, q)
  {
    var room := inv.rooms[p.room];
    var freezer := room.freezers[p.freezer];
    var freezer' := freezer.(shelves := freezer.shelves[p.shelf := shelf]);
    var room' := room.(freezers := room.freezers[p.freezer := freezer']);
    Inventory(inv.rooms[p.room := room'])
  }

  // ---------------------------------------------------------------------
  // Every box of the tree

  function ShelfBoxes(s: Shelf): seq<Box>
  {
    s.boxes
  }

  function FreezerBoxes(f: Freezer): seq<Box>
  {
    ConcatMap(f.shelves, ShelfBoxes)
  }

  function RoomBoxes(r: Room): seq<Box>
  {
    ConcatMap(r.freezers, FreezerBoxes)
  }

  function FreezerShelves(f: Freezer): seq<Shelf>
  {
    f.shelves
  }

  function RoomShelves(r: Room): seq<Shelf>
  {
    ConcatMap(r.freezers, FreezerShelves)
  }

  /** The shelves of the whole tree, in traversal order. */
  function AllShelves(inv: Inventory): seq<Shelf>
  {
    ConcatMap(inv.rooms, RoomShelves)
  }

  /** The boxes of the whole tree, in traversal order. */
  function AllBoxes(inv: Inventory): seq<Box>
  {
    ConcatMap(inv.rooms, RoomBoxes)
  }

  /** Replacing one shelf changes the tree's boxes by exactly that shelf's. */
  lemma SetShelfBoxes(inv: Inventory, p: Pos, shelf: Shelf)
    requires ValidPos(inv, p)
    ensures multiset(AllBoxes(SetShelf(inv, p, shelf))) + multiset(ShelfAt(inv, p).boxes)
         == multiset(AllBoxes(inv)) + multiset(shelf.boxes)
  {
    var room := inv.rooms[p.room];
    var freezer := room.freezers[p.freezer];
    var freezer' := freezer.(shelves := freezer.shelves[p.shelf := shelf]);
    var room' := room.(freezers := room.freezers[p.freezer := freezer']);
    var inv' := Inventory(inv.rooms[p.room := room']);
    assert inv' == SetShelf(inv, p, shelf);
    ConcatMapUpdate(freezer.shelves, p.shelf, shelf, ShelfBoxes);
    assert FreezerBoxes(freezer') == ConcatMap(freezer.shelves[p.shelf := shelf], ShelfBoxes);
    ConcatMapUpdate(room.freezers, p.freezer, freezer', FreezerBoxes);
    assert RoomBoxes(room') == ConcatMap(room.freezers[p.freezer := freezer'], FreezerBoxes);
    ConcatMapUpdate(inv.rooms, p.room, room', RoomBoxes);
    assert AllBoxes(inv') == ConcatMap(inv.rooms[p.room := room'], RoomBoxes);
    MultisetChain(multiset(AllBoxes(inv')), multiset(AllBoxes(inv)),
                  multiset(RoomBoxes(room')), multiset(RoomBoxes(room)),
                  multiset(FreezerBoxes(freezer')), multiset(FreezerBoxes(freezer)),
                  multiset(shelf.boxes), multiset(ShelfAt(inv, p).boxes));
  }

  /** Three one-level replacements compose into one. */
  lemma MultisetChain<T>(all': multiset<T>, all: multiset<T>, r': multiset<T>, r: multiset<T>,
                         f': multiset<T>, f: multiset<T>, s': multiset<T>, s: multiset<T>)
    requires all' + r == all + r'
    requires r' + f == r + f'
    requires f' + s == f + s'
    ensures all' + s == all + s'
  {
    forall x
      ensures (all' + s)[x] == (all + s')[x]
    {
      assert (all' + r)[x] == (all + r')[x];
      assert (r' + f)[x] == (r + f')[x];
      assert (f' + s)[x] == (f + s')[x];
    }
    assert all' + s == all + s';
  }

  /** Equal additions cancel. */
  lemma MultisetCancel<T>(a: multiset<T>, b: multiset<T>, m: multiset<T>)
    requires a + m == b + m
    ensures a == b
  {
    forall x
      ensures a[x] == b[x]
    {
      assert (a + m)[x] == (b + m)[x];
    }
  }

  // ---------------------------------------------------------------------
  // Drag and drop

  /** moveBoxToShelfById: the target is the first shelf with `toShelfId`,
      the source the first shelf holding a box with `boxId`; unless both
      exist nothing changes. The box leaves its source and is appended to
      the target; when the two are the same shelf it moves to its end. */
  function MoveBoxToShelfById(inv: Inventory, boxId: string, toShelfId: string): (r: Inventory)
    ensures forall q :: ValidPos(r, q) <==> ValidPos(inv, q)
    ensures (FindShelf(inv, ShelfIs(toShelfId)).None? || FindShelf(inv, Holds(boxId)).None?) ==> r == inv
    ensures FindShelf(inv, ShelfIs(toShelfId)).Some? && FindShelf(inv, Holds(boxId)).Some? ==>
      var src, dst := FindShelf(inv, Holds(boxId)).value, FindShelf(inv, ShelfIs(toShelfId)).value;
      var i := FirstIndex(ShelfAt(inv, src).boxes, BoxIs(boxId)).value;
      var box := ShelfAt(inv, src).boxes[i];
      && box.id == boxId
      && (src != dst ==>
            && ShelfAt(r, src) == ShelfAt(inv, src).(boxes := RemoveAt(ShelfAt(inv, src).boxes, i))
            && ShelfAt(r, dst) == ShelfAt(inv, dst).(boxes := ShelfAt(inv, dst).boxes + [box]))
      && (src == dst ==>
            ShelfAt(r, src) == ShelfAt(inv, src).(boxes := RemoveAt(ShelfAt(inv, src).boxes, i) + [box]))
      && (forall q :: ValidPos(inv, q) && q != src && q != dst ==> ShelfAt(r, q) == ShelfAt(inv, q))
    // only box lists change: every id and name of rooms, freezers and shelves stays
    ensures Skeleton(r) == Skeleton(inv)
    // dragging never creates, loses or duplicates a box
    ensures multiset(AllBoxes(r)) == multiset(AllBoxes(inv))
  {
    match (FindShelf(inv, Holds(boxId)), FindShelf(inv, ShelfIs(toShelfId)))
    case (Some(src), Some(dst)) =>
      var from := ShelfAt(inv, src);
      var i := FirstIndex(from.boxes, BoxIs(boxId)).value;
      var box := from.boxes[i];
      if src == dst then
        MoveWithinShape(inv, src, i);
        MoveWithin(inv, src, i)
      else
        MoveBetweenShape(inv, src, dst, i);
        MoveBetween(inv, src, dst, i)
    case _ => inv
  }

  /** The box at `i` of the shelf at `src` moved to that shelf's end. */
  function MoveWithin(inv: Inventory, src: Pos, i: nat): Inventory
    requires ValidPos(inv, src) && i < |ShelfAt(inv, src).boxes|
  {
    var from := ShelfAt(inv, src);
    SetShelf(inv, src, from.(boxes := RemoveAt(from.boxes, i) + [from.boxes[i]]))
  }

  /** The box at `i` of the shelf at `src` moved to the end of the one at `dst`. */
  function MoveBetween(inv: Inventory, src: Pos, dst: Pos, i: nat): Inventory
    requires ValidPos(inv, src) && ValidPos(inv, dst) && src != dst
    requires i < |ShelfAt(inv, src).boxes|
  {
    var from, to := ShelfAt(inv, src), ShelfAt(inv, dst);
    var inv' := SetShelf(inv, src, from.(boxes := RemoveAt(from.boxes, i)));
    SetShelf(inv', dst, to.(boxes := to.boxes + [from.boxes[i]]))
  }

  lemma MoveWithinShape(inv: Inventory, src: Pos, i: nat)
    requires ValidPos(inv, src) && i < |ShelfAt(inv, src).boxes|
    ensures var r, from := MoveWithin(inv, src, i), ShelfAt(inv, src);
      && (forall q :: ValidPos(r, q) <==> ValidPos(inv, q))
      && ShelfAt(r, src) == from.(boxes := RemoveAt(from.boxes, i) + [from.boxes[i]])
      && (forall q :: ValidPos(inv, q) && q != src ==> ShelfAt(r, q) == ShelfAt(inv, q))
      && Skeleton(r) == Skeleton(inv)
      && multiset(AllBoxes(r)) == multiset(AllBoxes(inv))
  {
    var from := ShelfAt(inv, src);
    MoveWithinConserves(inv, src, i);
    SetShelfSkeleton(inv, src, from.(boxes := RemoveAt(from.boxes, i) + [from.boxes[i]]));
  }

  lemma MoveBetweenShape(inv: Inventory, src: Pos, dst: Pos, i: nat)
    requires ValidPos(inv, src) && ValidPos(inv, dst) && src != dst
    requires i < |ShelfAt(inv, src).boxes|
    ensures var r, from, to := MoveBetween(inv, src, dst, i), ShelfAt(inv, src), ShelfAt(inv, dst);
      && (forall q :: ValidPos(r, q) <==> ValidPos(inv, q))
      && ShelfAt(r, src) == from.(boxes := RemoveAt(from.boxes, i))
      && ShelfAt(r, dst) == to.(boxes := to.boxes + [from.boxes[i]])
      && (forall q :: ValidPos(inv, q) && q != src && q != dst ==> ShelfAt(r, q) == ShelfAt(inv, q))
      && Skeleton(r) == Skeleton(inv)
      && multiset(AllBoxes(r)) == multiset(AllBoxes(inv))
  {
    var from, to := ShelfAt(inv, src), ShelfAt(inv, dst);
    var inv' := SetShelf(inv, src, from.(boxes := RemoveAt(from.boxes, i)));
    MoveBetweenConserves(inv, src, dst, i);
    SetShelfSkeleton(inv, src, from.(boxes := RemoveAt(from.boxes, i)));
    SetShelfSkeleton(inv', dst, to.(boxes := to.boxes + [from.boxes[i]]));
  }

  /** The tree with every shelf emptied: its rooms, freezers and shelves
      with their ids and names, and no boxes. */
  function Skeleton(inv: Inventory): Inventory
  {
    Inventory(seq(|inv.rooms|, k requires 0 <= k < |inv.rooms| => BareRoom(inv.rooms[k])))
  }

  function BareRoom(r: Room): Room
  {
    r.(freezers := seq(|r.freezers|, k requires 0 <= k < |r.freezers| => BareFreezer(r.freezers[k])))
  }

  function BareFreezer(f: Freezer): Freezer
  {
    f.(shelves := seq(|f.shelves|, k requires 0 <= k < |f.shelves| => f.shelves[k].(boxes := [])))
  }

  /** Replacing a shelf by one with the same id and name keeps the skeleton. */
  lemma SetShelfSkeleton(inv: Inventory, p: Pos, shelf: Shelf)
    requires ValidPos(inv, p)
    requires shelf.id == ShelfAt(inv, p).id && shelf.name == ShelfAt(inv, p).name
    ensures Skeleton(SetShelf(inv, p, shelf)) == Skeleton(inv)
  {
    var room := inv.rooms[p.room];
    var freezer := room.freezers[p.freezer];
    var freezer' := freezer.(shelves := freezer.shelves[p.shelf := shelf]);
    var room' := room.(freezers := room.freezers[p.freezer := freezer']);
    var inv' := Inventory(inv.rooms[p.room := room']);
    assert inv' == SetShelf(inv, p, shelf);
    assert BareFreezer(freezer') == BareFreezer(freezer) by {
      assert BareFreezer(freezer').shelves == BareFreezer(freezer).shelves;
    }
    assert BareRoom(room') == BareRoom(room) by {
      assert BareRoom(room').freezers == BareRoom(room).freezers;
    }
    assert Skeleton(inv').rooms == Skeleton(inv).rooms;
  }

  function ShelfIs(shelfId: string): Shelf -> bool
  {
    (s: Shelf) => s.id == shelfId
  }

  function Holds(boxId: string): Shelf -> bool
  {
    (s: Shelf) => FirstIndex(s.boxes, BoxIs(boxId)).Some?
  }

  lemma MoveWithinConserves(inv: Inventory, src: Pos, i: nat)
    requires ValidPos(inv, src) && i < |ShelfAt(inv, src).boxes|
    ensures var from := ShelfAt(inv, src);
      multiset(AllBoxes(SetShelf(inv, src, from.(boxes := RemoveAt(from.boxes, i) + [from.boxes[i]]))))
      == multiset(AllBoxes(inv))
  {
    var from := ShelfAt(inv, src);
    var moved := RemoveAt(from.boxes, i) + [from.boxes[i]];
    SetShelfBoxes(inv, src, from.(boxes := moved));
    assert multiset(moved) == multiset(from.boxes);
    MultisetCancel(multiset(AllBoxes(SetShelf(inv, src, from.(boxes := moved)))), multiset(AllBoxes(inv)),
                   multiset(from.boxes));
  }

  lemma MoveBetweenConserves(inv: Inventory, src: Pos, dst: Pos, i: nat)
    requires ValidPos(inv, src) && ValidPos(inv, dst) && src != dst
    requires i < |ShelfAt(inv, src).boxes|
    ensures var from, to := ShelfAt(inv, src), ShelfAt(inv, dst);
      var inv' := SetShelf(inv, src, from.(boxes := RemoveAt(from.boxes, i)));
      multiset(AllBoxes(SetShelf(inv', dst, to.(boxes := to.boxes + [from.boxes[i]]))))
      == multiset(AllBoxes(inv))
  {
    var from, to := ShelfAt(inv, src), ShelfAt(inv, dst);
    var box := from.boxes[i];
    var inv' := SetShelf(inv, src, from.(boxes := RemoveAt(from.boxes, i)));
    SetShelfBoxes(inv, src, from.(boxes := RemoveAt(from.boxes, i)));
    assert ShelfAt(inv', dst) == to;
    var inv'' := SetShelf(inv', dst, to.(boxes := to.boxes + [box]));
    SetShelfBoxes(inv', dst, to.(boxes := to.boxes + [box]));
    var removed := multiset(RemoveAt(from.boxes, i));
    assert removed + multiset{box} == multiset(from.boxes);
    assert multiset(to.boxes + [box]) == multiset(to.boxes) + multiset{box};
    MultisetCancel(multiset(AllBoxes(inv'')), multiset(AllBoxes(inv')) + multiset{box}, multiset(to.boxes));
    MultisetCancel(multiset(AllBoxes(inv')) + multiset{box}, multiset(AllBoxes(inv)), removed);
  }

  // ---------------------------------------------------------------------
  // Target lists of the Move dropdowns

  /** An option of the move-box dropdown: "room / freezer / shelf". */
  datatype ShelfOption = ShelfOption(id: string, name: string, shelf: Shelf)

  /** An option of the move-sample dropdown: "room / freezer / shelf / box". */
  datatype BoxOption = BoxOption(id: string, name: string, box: Box)

  function ShelfOptionOf(r: Room, f: Freezer, s: Shelf): ShelfOption
  {
    ShelfOption(s.id, r.name + " / " + f.name + " / " + s.name, s)
  }

  function BoxOptionOf(r: Room, f: Freezer, s: Shelf, b: Box): BoxOption
  {
    BoxOption(b.id, r.name + " / " + f.name + " / " + s.name + " / " + b.name, b)
  }

  function ShelfOptionOn(r: Room, f: Freezer): Shelf -> seq<ShelfOption>
  {
    (s: Shelf) => [ShelfOptionOf(r, f, s)]
  }

  function ShelfOptionsIn(r: Room): Freezer -> seq<ShelfOption>
  {
    (f: Freezer) => ConcatMap(f.shelves, ShelfOptionOn(r, f))
  }

  function ShelfOptionsOf(r: Room): seq<ShelfOption>
  {
    ConcatMap(r.freezers, ShelfOptionsIn(r))
  }

  /** Every shelf of the tree as a dropdown option, in traversal order. */
  function AllShelfOptions(inv: Inventory): seq<ShelfOption>
  {
    ConcatMap(inv.rooms, ShelfOptionsOf)
  }

  ghost predicate ShelfIn(inv: Inventory, r: Room, f: Freezer, s: Shelf)
  {
    r in inv.rooms && f in r.freezers && s in f.shelves
  }

  lemma ShelfOptionsInMember(r: Room, f: Freezer, o: ShelfOption)
    ensures o in ShelfOptionsIn(r)(f) <==> exists s :: s in f.shelves && o == ShelfOptionOf(r, f, s)
  {
    ConcatMapMember(f.shelves, ShelfOptionOn(r, f), o);
    if o in ShelfOptionsIn(r)(f) {
      var si :| 0 <= si < |f.shelves| && o in ShelfOptionOn(r, f)(f.shelves[si]);
    }
    if exists s :: s in f.shelves && o == ShelfOptionOf(r, f, s) {
      var s :| s in f.shelves && o == ShelfOptionOf(r, f, s);
      var si :| 0 <= si < |f.shelves| && f.shelves[si] == s;
      assert o in ShelfOptionOn(r, f)(f.shelves[si]);
    }
  }

  lemma ShelfOptionsOfMember(r: Room, o: ShelfOption)
    ensures o in ShelfOptionsOf(r) <==>
      exists f, s :: f in r.freezers && s in f.shelves && o == ShelfOptionOf(r, f, s)
  {
    if o in ShelfOptionsOf(r) {
      ConcatMapMember(r.freezers, ShelfOptionsIn(r), o);
      var fi :| 0 <= fi < |r.freezers| && o in ShelfOptionsIn(r)(r.freezers[fi]);
      ShelfOptionsInMember(r, r.freezers[fi], o);
    }
    if exists f, s :: f in r.freezers && s in f.shelves && o == ShelfOptionOf(r, f, s) {
      var f, s :| f in r.freezers && s in f.shelves && o == ShelfOptionOf(r, f, s);
      ShelfOptionsOfComplete(r, f, s);
    }
  }

  lemma ShelfOptionsOfComplete(r: Room, f: Freezer, s: Shelf)
    requires f in r.freezers && s in f.shelves
    ensures ShelfOptionOf(r, f, s) in ShelfOptionsOf(r)
  {
    var o := ShelfOptionOf(r, f, s);
    var fi :| 0 <= fi < |r.freezers| && r.freezers[fi] == f;
    ShelfOptionsInMember(r, f, o);
    assert o in ShelfOptionsIn(r)(r.freezers[fi]);
    ConcatMapMember(r.freezers, ShelfOptionsIn(r), o);
  }

  lemma AllShelfOptionsSound(inv: Inventory, o: ShelfOption)
    requires o in AllShelfOptions(inv)
    ensures exists r, f, s :: ShelfIn(inv, r, f, s) && o == ShelfOptionOf(r, f, s)
  {
    ConcatMapMember(inv.rooms, ShelfOptionsOf, o);
    var ri :| 0 <= ri < |inv.rooms| && o in ShelfOptionsOf(inv.rooms[ri]);
    var r := inv.rooms[ri];
    ShelfOptionsOfMember(r, o);
    var f, s :| f in r.freezers && s in f.shelves && o == ShelfOptionOf(r, f, s);
    assert ShelfIn(inv, r, f, s);
  }

  lemma AllShelfOptionsComplete(inv: Inventory, r: Room, f: Freezer, s: Shelf)
    requires ShelfIn(inv, r, f, s)
    ensures ShelfOptionOf(r, f, s) in AllShelfOptions(inv)
  {
    var o := ShelfOptionOf(r, f, s);
    var ri :| 0 <= ri < |inv.rooms| && inv.rooms[ri] == r;
    ShelfOptionsOfComplete(r, f, s);
    assert o in ShelfOptionsOf(inv.rooms[ri]);
    ConcatMapMember(inv.rooms, ShelfOptionsOf, o);
  }

  /** An option is in the list exactly when it describes a shelf of the tree. */
  lemma AllShelfOptionsMember(inv: Inventory, o: ShelfOption)
    ensures o in AllShelfOptions(inv) <==>
      exists r, f, s :: ShelfIn(inv, r, f, s) && o == ShelfOptionOf(r, f, s)
  {
    if o in AllShelfOptions(inv) {
      AllShelfOptionsSound(inv, o);
    }
    if exists r, f, s :: ShelfIn(inv, r, f, s) && o == ShelfOptionOf(r, f, s) {
      var r, f, s :| ShelfIn(inv, r, f, s) && o == ShelfOptionOf(r, f, s);
      AllShelfOptionsComplete(inv, r, f, s);
    }
  }

  /** The list holds one option per shelf of the tree: as many as there are
      shelves in the traversal. */
  lemma AllShelfOptionsCount(inv: Inventory)
    ensures |AllShelfOptions(inv)| == |AllShelves(inv)|
  {
    forall ri | 0 <= ri < |inv.rooms|
      ensures |ShelfOptionsOf(inv.rooms[ri])| == |RoomShelves(inv.rooms[ri])|
    {
      var r := inv.rooms[ri];
      forall fi | 0 <= fi < |r.freezers|
        ensures |ShelfOptionsIn(r)(r.freezers[fi])| == |FreezerShelves(r.freezers[fi])|
      {
        ConcatMapUnits(r.freezers[fi].shelves, ShelfOptionOn(r, r.freezers[fi]));
      }
      ConcatMapLength(r.freezers, ShelfOptionsIn(r), FreezerShelves);
    }
    ConcatMapLength(inv.rooms, ShelfOptionsOf, RoomShelves);
  }

  /** The first shelf of the freezer on screen that holds the box, if any:
      the search stops at the first match. */
  function CurrentShelf(freezer: Freezer, boxId: string): (r: Option<Shelf>)
    ensures r.Some? ==> r.value in freezer.shelves && Holds(boxId)(r.value)
    ensures r.Some? ==> exists i :: 0 <= i < |freezer.shelves| && r.value == freezer.shelves[i]
                                    && forall k :: 0 <= k < i ==> !Holds(boxId)(freezer.shelves[k])
    ensures r.None? <==> forall s :: s in freezer.shelves ==> !Holds(boxId)(s)
  {
    match FirstIndex(freezer.shelves, Holds(boxId))
    case Some(i) => Some(freezer.shelves[i])
    case None => None
  }

  /** showMoveBoxDropdown's option list: every shelf of the tree except the
      box's current one (compared by id). */
  function MoveBoxTargets(inv: Inventory, freezer: Freezer, boxId: string): (r: seq<ShelfOption>)
    ensures forall o :: o in r <==>
      && (exists rm, f, s :: ShelfIn(inv, rm, f, s) && o == ShelfOptionOf(rm, f, s))
      && (CurrentShelf(freezer, boxId).None? || o.id != CurrentShelf(freezer, boxId).value.id)
  {
    var current := CurrentShelf(freezer, boxId);
    var keep := (o: ShelfOption) => !(current.Some? && o.id == current.value.id);
    var all := AllShelfOptions(inv);
    forall o
      ensures o in all <==> exists rm, f, s :: ShelfIn(inv, rm, f, s) && o == ShelfOptionOf(rm, f, s)
    {
      AllShelfOptionsMember(inv, o);
    }
    Filter(all, keep)
  }

  function BoxOptionAt(r: Room, f: Freezer, s: Shelf): Box -> seq<BoxOption>
  {
    (b: Box) => [BoxOptionOf(r, f, s, b)]
  }

  function BoxOptionsOn(r: Room, f: Freezer): Shelf -> seq<BoxOption>
  {
    (s: Shelf) => ConcatMap(s.boxes, BoxOptionAt(r, f, s))
  }

  function BoxOptionsIn(r: Room): Freezer -> seq<BoxOption>
  {
    (f: Freezer) => ConcatMap(f.shelves, BoxOptionsOn(r, f))
  }

  function BoxOptionsOf(r: Room): seq<BoxOption>
  {
    ConcatMap(r.freezers, BoxOptionsIn(r))
  }

  /** Every box of the tree as a dropdown option, in traversal order. */
  function AllBoxOptions(inv: Inventory): seq<BoxOption>
  {
    ConcatMap(inv.rooms, BoxOptionsOf)
  }

  ghost predicate BoxIn(inv: Inventory, r: Room, f: Freezer, s: Shelf, b: Box)
  {
    ShelfIn(inv, r, f, s) && b in s.boxes
  }

  lemma BoxOptionsOnMember(r: Room, f: Freezer, s: Shelf, o: BoxOption)
    ensures o in BoxOptionsOn(r, f)(s) <==> exists b :: b in s.boxes && o == BoxOptionOf(r, f, s, b)
  {
    ConcatMapMember(s.boxes, BoxOptionAt(r, f, s), o);
    if o in BoxOptionsOn(r, f)(s) {
      var bi :| 0 <= bi < |s.boxes| && o in BoxOptionAt(r, f, s)(s.boxes[bi]);
    }
    if exists b :: b in s.boxes && o == BoxOptionOf(r, f, s, b) {
      var b :| b in s.boxes && o == BoxOptionOf(r, f, s, b);
      var bi :| 0 <= bi < |s.boxes| && s.boxes[bi] == b;
      assert o in BoxOptionAt(r, f, s)(s.boxes[bi]);
    }
  }

  lemma BoxOptionsInMember(r: Room, f: Freezer, o: BoxOption)
    ensures o in BoxOptionsIn(r)(f) <==>
      exists s, b :: s in f.shelves && b in s.boxes && o == BoxOptionOf(r, f, s, b)
  {
    if o in BoxOptionsIn(r)(f) {
      ConcatMapMember(f.shelves, BoxOptionsOn(r, f), o);
      var si :| 0 <= si < |f.shelves| && o in BoxOptionsOn(r, f)(f.shelves[si]);
      BoxOptionsOnMember(r, f, f.shelves[si], o);
    }
    if exists s, b :: s in f.shelves && b in s.boxes && o == BoxOptionOf(r, f, s, b) {
      var s, b :| s in f.shelves && b in s.boxes && o == BoxOptionOf(r, f, s, b);
      BoxOptionsInComplete(r, f, s, b);
    }
  }

  lemma BoxOptionsInComplete(r: Room, f: Freezer, s: Shelf, b: Box)
    requires s in f.shelves && b in s.boxes
    ensures BoxOptionOf(r, f, s, b) in BoxOptionsIn(r)(f)
  {
    var o := BoxOptionOf(r, f, s, b);
    var si :| 0 <= si < |f.shelves| && f.shelves[si] == s;
    BoxOptionsOnMember(r, f, s, o);
    assert o in BoxOptionsOn(r, f)(f.shelves[si]);
    ConcatMapMember(f.shelves, BoxOptionsOn(r, f), o);
  }

  lemma BoxOptionsOfMember(r: Room, o: BoxOption)
    ensures o in BoxOptionsOf(r) <==>
      exists f, s, b :: f in r.freezers && s in f.shelves && b in s.boxes && o == BoxOptionOf(r, f, s, b)
  {
    if o in BoxOptionsOf(r) {
      ConcatMapMember(r.freezers, BoxOptionsIn(r), o);
      var fi :| 0 <= fi < |r.freezers| && o in BoxOptionsIn(r)(r.freezers[fi]);
      BoxOptionsInMember(r, r.freezers[fi], o);
    }
    if exists f, s, b :: f in r.freezers && s in f.shelves && b in s.boxes && o == BoxOptionOf(r, f, s, b) {
      var f, s, b :| f in r.freezers && s in f.shelves && b in s.boxes && o == BoxOptionOf(r, f, s, b);
      BoxOptionsOfComplete(r, f, s, b);
    }
  }

  lemma BoxOptionsOfComplete(r: Room, f: Freezer, s: Shelf, b: Box)
    requires f in r.freezers && s in f.shelves && b in s.boxes
    ensures BoxOptionOf(r, f, s, b) in BoxOptionsOf(r)
  {
    var o := BoxOptionOf(r, f, s, b);
    var fi :| 0 <= fi < |r.freezers| && r.freezers[fi] == f;
    BoxOptionsInComplete(r, f, s, b);
    assert o in BoxOptionsIn(r)(r.freezers[fi]);
    ConcatMapMember(r.freezers, BoxOptionsIn(r), o);
  }

  lemma AllBoxOptionsSound(inv: Inventory, o: BoxOption)
    requires o in AllBoxOptions(inv)
    ensures exists r, f, s, b :: BoxIn(inv, r, f, s, b) && o == BoxOptionOf(r, f, s, b)
  {
    ConcatMapMember(inv.rooms, BoxOptionsOf, o);
    var ri :| 0 <= ri < |inv.rooms| && o in BoxOptionsOf(inv.rooms[ri]);
    var r := inv.rooms[ri];
    BoxOptionsOfMember(r, o);
    var f, s, b :| f in r.freezers && s in f.shelves && b in s.boxes && o == BoxOptionOf(r, f, s, b);
    assert BoxIn(inv, r, f, s, b);
  }

  lemma AllBoxOptionsComplete(inv: Inventory, r: Room, f: Freezer, s: Shelf, b: Box)
    requires BoxIn(inv, r, f, s, b)
    ensures BoxOptionOf(r, f, s, b) in AllBoxOptions(inv)
  {
    var o := BoxOptionOf(r, f, s, b);
    var ri :| 0 <= ri < |inv.rooms| && inv.rooms[ri] == r;
    BoxOptionsOfComplete(r, f, s, b);
    assert o in BoxOptionsOf(inv.rooms[ri]);
    ConcatMapMember(inv.rooms, BoxOptionsOf, o);
  }

  lemma AllBoxOptionsMember(inv: Inventory, o: BoxOption)
    ensures o in AllBoxOptions(inv) <==>
      exists r, f, s, b :: BoxIn(inv, r, f, s, b) && o == BoxOptionOf(r, f, s, b)
  {
    if o in AllBoxOptions(inv) {
      AllBoxOptionsSound(inv, o);
    }
    if exists r, f, s, b :: BoxIn(inv, r, f, s, b) && o == BoxOptionOf(r, f, s, b) {
      var r, f, s, b :| BoxIn(inv, r, f, s, b) && o == BoxOptionOf(r, f, s, b);
      AllBoxOptionsComplete(inv, r, f, s, b);
    }
  }

  /** The list holds one option per box of the tree: as many as there are
      boxes in the traversal. */
  lemma AllBoxOptionsCount(inv: Inventory)
    ensures |AllBoxOptions(inv)| == |AllBoxes(inv)|
  {
    forall ri | 0 <= ri < |inv.rooms|
      ensures |BoxOptionsOf(inv.rooms[ri])| == |RoomBoxes(inv.rooms[ri])|
    {
      BoxOptionsOfCount(inv.rooms[ri]);
    }
    ConcatMapLength(inv.rooms, BoxOptionsOf, RoomBoxes);
  }

  lemma BoxOptionsOfCount(r: Room)
    ensures |BoxOptionsOf(r)| == |RoomBoxes(r)|
  {
    forall fi | 0 <= fi < |r.freezers|
      ensures |BoxOptionsIn(r)(r.freezers[fi])| == |FreezerBoxes(r.freezers[fi])|
    {
      var f := r.freezers[fi];
      forall si | 0 <= si < |f.shelves|
        ensures |BoxOptionsOn(r, f)(f.shelves[si])| == |ShelfBoxes(f.shelves[si])|
      {
        ConcatMapUnits(f.shelves[si].boxes, BoxOptionAt(r, f, f.shelves[si]));
      }
      ConcatMapLength(f.shelves, BoxOptionsOn(r, f), ShelfBoxes);
    }
    ConcatMapLength(r.freezers, BoxOptionsIn(r), FreezerBoxes);
  }

  /** showMoveSampleDropdown's option list: every box of the tree except the
      one on screen (compared by id). */
  function MoveSampleTargets(inv: Inventory, current: Box): (r: seq<BoxOption>)
    ensures forall o :: o in r <==>
      && (exists rm, f, s, b :: BoxIn(inv, rm, f, s, b) && o == BoxOptionOf(rm, f, s, b))
      && o.id != current.id
  {
    var all := AllBoxOptions(inv);
    forall o
      ensures o in all <==> exists rm, f, s, b :: BoxIn(inv, rm, f, s, b) && o == BoxOptionOf(rm, f, s, b)
    {
      AllBoxOptionsMember(inv, o);
    }
    Filter(all, (o: BoxOption) => o.id != current.id)
  }
}

=== FILE: links.dfy ===
/** The specimen link service of backend/edna.go and backend/fish.go.

    The two files differ only in table, catalogue and message wording, so
    they are one service here, parameterised by `Kind`. A link row records
    the name a user typed, the box it is stored in, and — when the external
    catalogue recognised the name — the catalogue identifier. Rows are
    addressed by the typed name; nothing in the service keeps names unique. */
module SpecimenLinks {
  import opened Wrappers
  import opened Seqs
  import opened Locations
  import Decimal
  import Text

  datatype Kind = Edna | Fish

  /** A row of `mgl_edna_box_link` / `mgl_fish_box_link`. */
  datatype Link = Link(resolvedId: Option<int>, enteredName: string, boxId: int)

  /** Both link tables; every operation works on the table of one kind. */
  datatype LinkTables = LinkTables(edna: seq<Link>, fish: seq<Link>) {

    function Of(kind: Kind): seq<Link>
    {
      match kind
      case Edna => edna
      case Fish => fish
    }

    function With(kind: Kind, t: seq<Link>): (r: LinkTables)
      ensures r.Of(kind) == t
      ensures forall k :: k != kind ==> r.Of(k) == Of(k)
    {
      match kind
      case Edna => this.(edna := t)
      case Fish => this.(fish := t)
    }
  }

  /** What the external catalogue answers: an identifier and its canonical
      name, or the sentinel pair (-1, "") for "not found or not unique". */
  datatype Reply = Reply(id: int, name: string)

  /** The external catalogues (`GetEDNAID`, `GetSpecimenID`), one per kind.
      Their matching rules are not modelled; they are any function. */
  type Catalog = (Kind, string) -> Reply

  const Unmatched: int := -1

  /** CheckEdnaExists / CheckFishExists: asks the kind's catalogue and hands
      its reply on unchanged, the not-found sentinel included. */
  function CheckExists(catalog: Catalog, kind: Kind, enteredName: string): (r: Reply)
    ensures r.id == catalog(kind, enteredName).id && r.name == catalog(kind, enteredName).name
  {
    catalog(kind, enteredName)
  }

  // ---------------------------------------------------------------------
  // Insert

  /** How a recorded link relates to the catalogue, as reported to the user. */
  datatype InsertNote =
    | Unresolved               // warning: recorded, but not linked to the catalogue
    | MatchedTo(canonical: string) // notice: linked under a different catalogue name
    | ExactMatch               // linked under the typed name; nothing is said

  /** The tables after an insert, its result, and whether the catalogue was asked. */
  datatype InsertStep = InsertStep(tables: LinkTables, result: Result<InsertNote>, consulted: bool)

  /** The row an insert writes: always the typed name, never the canonical one. */
  function NewLink(reply: Reply, enteredName: string, boxId: int): Link
  {
    Link(if reply.id != Unmatched then Some(reply.id) else None, enteredName, boxId)
  }

  function Classify(reply: Reply, enteredName: string): InsertNote
  {
    if reply.id == Unmatched then Unresolved
    else if reply.name != enteredName then MatchedTo(reply.name)
    else ExactMatch
  }

  /** InsertEdnaLink / InsertfishLink. */
  function InsertLink(tables: LinkTables, kind: Kind, catalog: Catalog, enteredName: string,
                      boxId: Option<int>, store: Store): (r: InsertStep)
    // presence checks come before the catalogue and the store
    ensures enteredName == "" || boxId.None? ==> r == InsertStep(tables, Err(BadRequest), false)
    ensures enteredName != "" && boxId.Some? ==> r.consulted
    ensures r.result.Ok? <==> enteredName != "" && boxId.Some? && store.Available?
    ensures enteredName != "" && boxId.Some? && store.Failing? ==> r.result == Err(ServerError)
    ensures r.result.Err? ==> r.tables == tables
    ensures forall k :: k != kind ==> r.tables.Of(k) == tables.Of(k)
    // exactly one row is appended, holding the typed name
    ensures r.result.Ok? ==>
      var t, t' := tables.Of(kind), r.tables.Of(kind);
      var reply := catalog(kind, enteredName);
      && |t'| == |t| + 1
      && t'[..|t|] == t
      && t'[|t|].enteredName == enteredName
      && t'[|t|].boxId == boxId.value
      && (t'[|t|].resolvedId.None? <==> reply.id == Unmatched)
      && (t'[|t|].resolvedId.Some? ==> t'[|t|].resolvedId.value == reply.id)
    // the three outcomes
    ensures r.result.Ok? ==>
      var reply := catalog(kind, enteredName);
      && (r.result.value == Unresolved <==> reply.id == Unmatched)
      && (r.result.value.MatchedTo? <==> reply.id != Unmatched && reply.name != enteredName)
      && (r.result.value.MatchedTo? ==> r.result.value.canonical == reply.name)
  {
    if enteredName == "" || boxId.None? then InsertStep(tables, Err(BadRequest), false)
    else
      var reply := CheckExists(catalog, kind, enteredName);
      if store.Failing? then InsertStep(tables, Err(ServerError), true)
      else
        var t := tables.Of(kind);
        InsertStep(tables.With(kind, t + [NewLink(reply, enteredName, boxId.value)]),
                   Ok(Classify(reply, enteredName)), true)
  }

  /** How a kind is titled in the insert messages, and named elsewhere. */
  function Title(kind: Kind): string
  {
    match kind
    case Edna => "eDNA"
    case Fish => "Fish"
  }

  function Noun(kind: Kind): string
  {
    match kind
    case Edna => "eDNA"
    case Fish => "fish"
  }

  /** The response body of a successful insert: silent exactly for the
      catalogue's own name; otherwise it starts with the kind's title, and a
      matched name is quoted right after "ID matched to: ", which the
      message for an unresolved name does not say. */
  function InsertMessage(kind: Kind, note: InsertNote): (r: string)
    ensures r == "" <==> note == ExactMatch
    ensures note != ExactMatch ==> Title(kind) <= r
    ensures note.MatchedTo? ==>
      var lead := Title(kind) + " ID matched to: ";
      lead <= r && note.canonical <= r[|lead|..]
    ensures note.Unresolved? ==> !(Title(kind) + " ID matched to: " <= r)
  {
    match note
    case Unresolved =>
      var notice, lead := NotLinkedNotice(kind), Title(kind) + " ID matched to: ";
      var msg := Title(kind) + notice;
      assert notice[4] == 'w' && msg[|Title(kind)| + 4] == notice[4];
      assert lead[|Title(kind)| + 4] == 'm';
      msg
    case MatchedTo(canonical) =>
      var lead := Title(kind) + " ID matched to: ";
      var msg := lead + (canonical + ". This will be used.");
      assert msg[|lead|..] == canonical + ". This will be used.";
      msg
    case ExactMatch => ""
  }

  /** The client can tell every outcome of an insert from its message:
      different outcomes never share one. */
  lemma InsertMessageTells(kind: Kind, a: InsertNote, b: InsertNote)
    requires InsertMessage(kind, a) == InsertMessage(kind, b)
    ensures a == b
  {
    if a.MatchedTo? && b.MatchedTo? {
      var lead := Title(kind) + " ID matched to: ";
      var tail := ". This will be used.";
      var m := InsertMessage(kind, a);
      assert m == lead + (a.canonical + tail);
      assert m == lead + (b.canonical + tail);
      assert m[|lead|..] == a.canonical + tail == b.canonical + tail;
      assert a.canonical == (a.canonical + tail)[..|a.canonical|];
      assert b.canonical == (b.canonical + tail)[..|b.canonical|];
    }
  }

  /** What the message for an unresolved name says after the title. */
  function NotLinkedNotice(kind: Kind): string
  {
    " ID was" + " not found in database or is not unique (unique IDs can be used). "
    + "The record is recorded bt not linked to the " + Noun(kind) + " table."
  }

  // ---------------------------------------------------------------------
  // Update and delete

  /** The row as an update leaves it: the box always, the name only when a
      new one is given; the catalogue identifier is never re-resolved. */
  function Relinked(l: Link, boxId: int, newEnteredName: string): Link
  {
    Link(l.resolvedId, if newEnteredName != "" then newEnteredName else l.enteredName, boxId)
  }

  function Named(name: string): Link -> bool
  {
    (l: Link) => l.enteredName == name
  }

  function NotNamed(name: string): Link -> bool
  {
    (l: Link) => l.enteredName != name
  }

  /** UpdateEdnaLink / UpdateFishLink. */
  function UpdateLink(tables: LinkTables, kind: Kind, boxId: Option<int>, enteredName: string,
                      newEnteredName: string, store: Store): (r: Step<LinkTables, ()>)
    ensures boxId.None? || enteredName == "" ==> r == Step(tables, Err(BadRequest))
    ensures r.result.Err? ==> r.state == tables
    ensures forall k :: k != kind ==> r.state.Of(k) == tables.Of(k)
    ensures boxId.Some? && enteredName != "" && store.Available? ==>
      (r.result == Err(NotFound) <==>
       forall i :: 0 <= i < |tables.Of(kind)| ==> tables.Of(kind)[i].enteredName != enteredName)
    ensures r.result.Ok? ==> boxId.Some? && enteredName != "" && store.Available?
    // with both fields present, the store decides between 500 and 404
    ensures boxId.Some? && enteredName != "" && r.result.Err? ==>
      r.result.failure == (if store.Failing? then ServerError else NotFound)
    ensures r.result.Ok? ==>
      var t, t' := tables.Of(kind), r.state.Of(kind);
      && |t'| == |t|
      && forall i :: 0 <= i < |t| ==>
           if t[i].enteredName == enteredName then
             && t'[i].resolvedId == t[i].resolvedId
             && t'[i].boxId == boxId.value
             && t'[i].enteredName == (if newEnteredName != "" then newEnteredName else enteredName)
           else t'[i] == t[i]
  {
    if boxId.None? || enteredName == "" then Step(tables, Err(BadRequest))
    else if store.Failing? then Step(tables, Err(ServerError))
    else
      var t := tables.Of(kind);
      if Count(t, Named(enteredName)) == 0 then Step(tables, Err(NotFound))
      else
        var relink := (l: Link) => Relinked(l, boxId.value, newEnteredName);
        Step(tables.With(kind, MapWhere(t, Named(enteredName), relink)), Ok(()))
  }

  /** DeleteEdnaLink / DeleteFishLink: removes every row with the name; a
      name no row has is still a success. */
  function DeleteLink(tables: LinkTables, kind: Kind, enteredName: string, store: Store)
    : (r: Step<LinkTables, ()>)
    ensures enteredName == "" ==> r == Step(tables, Err(BadRequest))
    ensures r.result.Err? ==> r.state == tables
    ensures r.result.Ok? <==> enteredName != "" && store.Available?
    ensures enteredName != "" && store.Failing? ==> r.result == Err(ServerError)
    ensures forall k :: k != kind ==> r.state.Of(k) == tables.Of(k)
    ensures r.result.Ok? ==>
      forall l :: l in r.state.Of(kind) <==> l in tables.Of(kind) && l.enteredName != enteredName
    ensures r.result.Ok? ==>
      forall l :: multiset(r.state.Of(kind))[l] ==
        if l.enteredName != enteredName then multiset(tables.Of(kind))[l] else 0
  {
    if enteredName == "" then Step(tables, Err(BadRequest))
    else if store.Failing? then Step(tables, Err(ServerError))
    else
      FilterCounts(tables.Of(kind), NotNamed(enteredName));
      Step(tables.With(kind, Filter(tables.Of(kind), NotNamed(enteredName))), Ok(()))
  }

  // ---------------------------------------------------------------------
  // Queries

  /** EdnaLinkByBox / FishLinkByBox: the links of one box, unresolved ones
      included, as far as the row stream delivers them. An empty box id is
      answered with a 500, not a 400. */
  function LinksByBox(tables: LinkTables, kind: Kind, boxId: Option<int>, store: Store, stream: Stream)
    : (r: Result<seq<Link>>)
    ensures boxId.None? || store.Failing? <==> r == Err(ServerError)
    ensures r.Ok? <==> boxId.Some? && store.Available?
    ensures r.Ok? ==> forall l :: l in r.value ==> l in tables.Of(kind) && l.boxId == boxId.value
    ensures r.Ok? && stream.Whole? ==>
      forall l :: l in r.value <==> l in tables.Of(kind) && l.boxId == boxId.value
    ensures r.Ok? && stream.Whole? ==>
      forall l :: multiset(r.value)[l] == if l.boxId == boxId.value then multiset(tables.Of(kind))[l] else 0
    ensures r.Ok? && stream.BreaksAfter? ==> |r.value| <= stream.read
  {
    if boxId.None? || store.Failing? then Err(ServerError)
    else
      var selected := Filter(tables.Of(kind), InBox(boxId.value));
      FilterCounts(tables.Of(kind), InBox(boxId.value));
      var rows := Received(stream, selected);
      assert forall l :: l in rows ==> l in selected by {
        forall l | l in rows
          ensures l in selected
        {
          ReceivedMember(stream, selected, l);
        }
      }
      Ok(rows)
  }

  /** A broken stream gives the first rows of the whole listing. */
  lemma LinksByBoxBroken(tables: LinkTables, kind: Kind, boxId: int, read: nat)
    ensures var whole := LinksByBox(tables, kind, Some(boxId), Available, Whole).value;
      var part := LinksByBox(tables, kind, Some(boxId), Available, BreaksAfter(read)).value;
      && part <= whole
      && |part| == if read <= |whole| then read else |whole|
  {
  }

  function InBox(boxId: int): Link -> bool
  {
    (l: Link) => l.boxId == boxId
  }

  /** Where a linked specimen is: one row of the link → box → freezer →
      freezer-location join. */
  datatype LocationSummary = LocationSummary(
    shelf: int, enteredName: string, boxName: string,
    freezerName: string, freezerModel: string, lab: string, floor: string)

  datatype Presence = NotStored | StoredAt(summary: LocationSummary)

  function Summary(l: Link, b: Box, p: Place): LocationSummary
  {
    LocationSummary(b.shelf, l.enteredName, b.name, p.freezer.name, p.freezer.model,
                    p.location.lab, p.location.floor)
  }

  /** Link `l` joins box `b`, which joins freezer `f` standing in `loc`. */
  ghost predicate LinkChains(g: Graph, l: Link, b: Box, f: Freezer, loc: Location)
  {
    b in g.boxes && b.id == l.boxId && Chains(g, b, f, loc)
  }

  function SummaryRow(l: Link, b: Box): Place -> seq<LocationSummary>
  {
    (p: Place) => [Summary(l, b, p)]
  }

  function BoxRows(g: Graph, l: Link): Box -> seq<LocationSummary>
  {
    (b: Box) => if b.id == l.boxId then ConcatMap(Places(g, b), SummaryRow(l, b)) else []
  }

  function LinkRows(g: Graph, name: string): Link -> seq<LocationSummary>
  {
    (l: Link) => if l.enteredName == name then ConcatMap(g.boxes, BoxRows(g, l)) else []
  }

  /** The rows of the join for one entered name, in link-table order. */
  function LocationsOf(g: Graph, links: seq<Link>, name: string): seq<LocationSummary>
  {
    ConcatMap(links, LinkRows(g, name))
  }

  lemma BoxRowsSound(g: Graph, l: Link, s: LocationSummary)
    requires s in ConcatMap(g.boxes, BoxRows(g, l))
    ensures exists b, f, loc :: LinkChains(g, l, b, f, loc) && s == Summary(l, b, Place(f, loc))
  {
    ConcatMapMember(g.boxes, BoxRows(g, l), s);
    var i :| 0 <= i < |g.boxes| && s in BoxRows(g, l)(g.boxes[i]);
    var b := g.boxes[i];
    ConcatMapMember(Places(g, b), SummaryRow(l, b), s);
    var j :| 0 <= j < |Places(g, b)| && s in SummaryRow(l, b)(Places(g, b)[j]);
    var p := Places(g, b)[j];
    PlacesMember(g, b, p);
    assert LinkChains(g, l, b, p.freezer, p.location) && s == Summary(l, b, Place(p.freezer, p.location));
  }

  lemma BoxRowsComplete(g: Graph, l: Link, b: Box, f: Freezer, loc: Location)
    requires LinkChains(g, l, b, f, loc)
    ensures Summary(l, b, Place(f, loc)) in ConcatMap(g.boxes, BoxRows(g, l))
  {
    var s := Summary(l, b, Place(f, loc));
    var i :| 0 <= i < |g.boxes| && g.boxes[i] == b;
    PlacesMember(g, b, Place(f, loc));
    var j :| 0 <= j < |Places(g, b)| && Places(g, b)[j] == Place(f, loc);
    assert s in SummaryRow(l, b)(Places(g, b)[j]);
    ConcatMapMember(Places(g, b), SummaryRow(l, b), s);
    assert s in BoxRows(g, l)(g.boxes[i]);
    ConcatMapMember(g.boxes, BoxRows(g, l), s);
  }

  lemma BoxRowsMember(g: Graph, l: Link, s: LocationSummary)
    ensures s in ConcatMap(g.boxes, BoxRows(g, l)) <==>
      exists b, f, loc :: LinkChains(g, l, b, f, loc) && s == Summary(l, b, Place(f, loc))
  {
    if s in ConcatMap(g.boxes, BoxRows(g, l)) {
      BoxRowsSound(g, l, s);
    }
    if exists b, f, loc :: LinkChains(g, l, b, f, loc) && s == Summary(l, b, Place(f, loc)) {
      var b, f, loc :| LinkChains(g, l, b, f, loc) && s == Summary(l, b, Place(f, loc));
      BoxRowsComplete(g, l, b, f, loc);
    }
  }

  /** A row of the join is exactly a chain from a link with that name. */
  lemma LocationsOfMember(g: Graph, links: seq<Link>, name: string, s: LocationSummary)
    ensures s in LocationsOf(g, links, name) <==>
      exists l, b, f, loc :: l in links && l.enteredName == name && LinkChains(g, l, b, f, loc)
                             && s == Summary(l, b, Place(f, loc))
  {
    ConcatMapMember(links, LinkRows(g, name), s);
    if s in LocationsOf(g, links, name) {
      var i :| 0 <= i < |links| && s in LinkRows(g, name)(links[i]);
      BoxRowsMember(g, links[i], s);
    }
    if exists l, b, f, loc :: l in links && l.enteredName == name && LinkChains(g, l, b, f, loc)
                             && s == Summary(l, b, Place(f, loc)) {
      var l, b, f, loc :| l in links && l.enteredName == name && LinkChains(g, l, b, f, loc)
                          && s == Summary(l, b, Place(f, loc));
      var i :| 0 <= i < |links| && links[i] == l;
      BoxRowsMember(g, l, s);
      assert s in LinkRows(g, name)(links[i]);
    }
  }

  /** The join is empty exactly when no link with the name reaches a location. */
  lemma LocationsOfEmpty(g: Graph, links: seq<Link>, name: string)
    ensures LocationsOf(g, links, name) == [] <==>
      forall l, b, f, loc :: l in links && l.enteredName == name ==> !LinkChains(g, l, b, f, loc)
  {
    if LocationsOf(g, links, name) != [] {
      LocationsOfMember(g, links, name, LocationsOf(g, links, name)[0]);
    }
    if exists l, b, f, loc :: l in links && l.enteredName == name && LinkChains(g, l, b, f, loc) {
      var l, b, f, loc :| l in links && l.enteredName == name && LinkChains(g, l, b, f, loc);
      LocationsOfMember(g, links, name, Summary(l, b, Place(f, loc)));
    }
  }

  /** CheckEdnaAlreadyInABox / CheckFishAlreadyInABox: reports the first
      joined row the stream delivers, or that none came. An empty name is
      answered with a 500. */
  function AlreadyInABox(tables: LinkTables, kind: Kind, g: Graph, enteredName: string,
                         store: Store, stream: Stream)
    : (r: Result<Presence>)
    ensures enteredName == "" || store.Failing? <==> r == Err(ServerError)
    ensures r.Ok? <==> enteredName != "" && store.Available?
    // "not stored" is answered for a name stored nowhere, and for any name
    // when the stream breaks before its first row
    ensures r == Ok(NotStored) <==>
      && enteredName != "" && store.Available?
      && (|| stream == BreaksAfter(0)
          || forall l, b, f, loc :: l in tables.Of(kind) && l.enteredName == enteredName ==>
               !LinkChains(g, l, b, f, loc))
    ensures r.Ok? && r.value.StoredAt? ==>
      && LocationsOf(g, tables.Of(kind), enteredName) != []
      && r.value.summary == LocationsOf(g, tables.Of(kind), enteredName)[0]
      && exists l, b, f, loc :: l in tables.Of(kind) && l.enteredName == enteredName
                                && LinkChains(g, l, b, f, loc)
                                && r.value.summary == Summary(l, b, Place(f, loc))
  {
    if enteredName == "" || store.Failing? then Err(ServerError)
    else
      var joined := LocationsOf(g, tables.Of(kind), enteredName);
      var rows := Received(stream, joined);
      ReceivedHead(stream, joined);
      LocationsOfEmpty(g, tables.Of(kind), enteredName);
      if rows == [] then Ok(NotStored)
      else
        LocationsOfMember(g, tables.Of(kind), enteredName, joined[0]);
        Ok(StoredAt(joined[0]))
  }

  /** Once the stream has delivered one row, the check answers what the
      whole stream would. */
  lemma AlreadyInABoxBroken(tables: LinkTables, kind: Kind, g: Graph, enteredName: string,
                            store: Store, read: nat)
    requires read > 0
    ensures AlreadyInABox(tables, kind, g, enteredName, store, BreaksAfter(read))
         == AlreadyInABox(tables, kind, g, enteredName, store, Whole)
  {
  }

  /** The response body of the already-in-a-box check. The client treats
      "0" as "not stored anywhere", and no location message equals it; a
      location message names the box first, then each field of the
      location after its label, the lab last. */
  function AlreadyMessage(kind: Kind, presence: Presence): (r: string)
    ensures r == "0" <==> presence == NotStored
    ensures presence.StoredAt? ==>
      var lead := Noun(kind) + " already exists in: Box: ";
      lead <= r && presence.summary.boxName <= r[|lead|..]
    ensures presence.StoredAt? ==>
      var s := presence.summary;
      && (exists i :: Text.OccursAt(r, ", Freezer: " + s.freezerName + " (" + s.freezerModel + ")", i))
      && (exists i :: Text.OccursAt(r, ", Shelf: " + Decimal.Itoa(s.shelf) + ", Floor: ", i))
      && (exists i :: Text.OccursAt(r, ", Floor: " + s.floor + ", Lab: ", i))
      && |", Lab: " + s.lab| <= |r| && r[|r| - |", Lab: " + s.lab|..] == ", Lab: " + s.lab
  {
    match presence
    case NotStored => "0"
    case StoredAt(s) =>
      LocationMessage(kind, s);
      (Noun(kind) + " already exists in: Box: " + s.boxName) + Whereabouts(s)
  }

  /** The location message starts with the box and names every field. */
  lemma LocationMessage(kind: Kind, s: LocationSummary)
    ensures var r := (Noun(kind) + " already exists in: Box: " + s.boxName) + Whereabouts(s);
      var lead := Noun(kind) + " already exists in: Box: ";
      && lead <= r && s.boxName <= r[|lead|..]
      && (exists i :: Text.OccursAt(r, ", Freezer: " + s.freezerName + " (" + s.freezerModel + ")", i))
      && (exists i :: Text.OccursAt(r, ", Shelf: " + Decimal.Itoa(s.shelf) + ", Floor: ", i))
      && (exists i :: Text.OccursAt(r, ", Floor: " + s.floor + ", Lab: ", i))
      && |", Lab: " + s.lab| <= |r| && r[|r| - |", Lab: " + s.lab|..] == ", Lab: " + s.lab
  {
    var lead := Noun(kind) + " already exists in: Box: ";
    BoxFirst(lead, s.boxName, Whereabouts(s));
    WhereaboutsFields(lead + s.boxName, s);
  }

  /** What follows a lead starts with the name put after it. */
  lemma BoxFirst(lead: string, name: string, rest: string)
    ensures lead <= (lead + name) + rest && name <= ((lead + name) + rest)[|lead|..]
  {
    assert ((lead + name) + rest)[|lead|..] == name + rest;
  }

  /** Everything the location message says after the box name. */
  function Whereabouts(s: LocationSummary): string
  {
    FreezerField(s) + ShelfField(s) + FloorField(s) + LabField(s)
  }

  function FreezerField(s: LocationSummary): string
  {
    ", Freezer: " + s.freezerName + " (" + s.freezerModel + ")"
  }

  function ShelfField(s: LocationSummary): string
  {
    ", Shelf: " + Decimal.Itoa(s.shelf)
  }

  function FloorField(s: LocationSummary): string
  {
    ", Floor: " + s.floor
  }

  function LabField(s: LocationSummary): string
  {
    ", Lab: " + s.lab
  }

  /** Each field stands after its label, up to the next label. */
  lemma WhereaboutsFields(head: string, s: LocationSummary)
    ensures var r := head + Whereabouts(s);
      && (exists i :: Text.OccursAt(r, FreezerField(s), i))
      && (exists i :: Text.OccursAt(r, ShelfField(s) + ", Floor: ", i))
      && (exists i :: Text.OccursAt(r, FloorField(s) + ", Lab: ", i))
      && |LabField(s)| <= |r| && r[|r| - |LabField(s)|..] == LabField(s)
  {
    var a, b, c, d, e, f := FreezerField(s), ShelfField(s), ", Floor: ", s.floor, ", Lab: ", s.lab;
    var r := head + Whereabouts(s);
    assert r == head + a + b + (c + d) + (e + f);
    FieldsInOrder(head, a, b, c, d, e, f);
  }

  /** Where the pieces of `head + a + b + (c + d) + (e + f)` stand. */
  lemma FieldsInOrder(head: string, a: string, b: string, c: string, d: string, e: string, f: string)
    ensures var r := head + a + b + (c + d) + (e + f);
      && Text.OccursAt(r, a, |head|)
      && Text.OccursAt(r, b + c, |head| + |a|)
      && Text.OccursAt(r, c + d + e, |head| + |a| + |b|)
      && |e + f| <= |r| && r[|r| - |e + f|..] == e + f
  {
    FirstPiece(head, a, b, c, d, e, f);
    SecondPiece(head, a, b, c, d, e, f);
    ThirdPiece(head, a, b, c, d, e, f);
    LastPiece(head + a + b + (c + d), e + f);
  }

  lemma FirstPiece(head: string, a: string, b: string, c: string, d: string, e: string, f: string)
    ensures Text.OccursAt(head + a + b + (c + d) + (e + f), a, |head|)
  {
    assert head + a + b + (c + d) + (e + f) == head + a + (b + (c + d) + (e + f));
    Text.OccursMiddle(head, a, b + (c + d) + (e + f));
  }

  lemma SecondPiece(head: string, a: string, b: string, c: string, d: string, e: string, f: string)
    ensures Text.OccursAt(head + a + b + (c + d) + (e + f), b + c, |head| + |a|)
  {
    assert head + a + b + (c + d) + (e + f) == (head + a) + (b + c) + (d + (e + f));
    Text.OccursMiddle(head + a, b + c, d + (e + f));
  }

  lemma ThirdPiece(head: string, a: string, b: string, c: string, d: string, e: string, f: string)
    ensures Text.OccursAt(head + a + b + (c + d) + (e + f), c + d + e, |head| + |a| + |b|)
  {
    assert head + a + b + (c + d) + (e + f) == (head + a + b) + (c + d + e) + f;
    Text.OccursMiddle(head + a + b, c + d + e, f);
  }

  lemma LastPiece(front: string, last: string)
    ensures (front + last)[|front + last| - |last|..] == last
  {
  }
}

=== FILE: links_properties.dfy ===
/** Properties of the specimen link service that relate several calls:
    what a later query sees after an insert, update or delete, and what
    happens to the one-link-per-name expectation the service relies on. */
module LinkProperties {
  import opened Wrappers
  import opened Seqs
  import opened Locations
  import opened SpecimenLinks

  /** No two rows of a link table carry the same typed name. Update and
      delete address rows by that name, so they touch one link only when
      this holds. */
  ghost predicate UniqueNames(t: seq<Link>)
  {
    forall i, j :: 0 <= i < j < |t| ==> t[i].enteredName != t[j].enteredName
  }

  /** A new link is listed under its box at once, with the typed name. */
  lemma InsertThenListed(tables: LinkTables, kind: Kind, catalog: Catalog, enteredName: string, boxId: int)
    requires enteredName != ""
    ensures var ins := InsertLink(tables, kind, catalog, enteredName, Some(boxId), Available);
      var listed := LinksByBox(ins.tables, kind, Some(boxId), Available, Whole);
      && listed.Ok?
      && NewLink(catalog(kind, enteredName), enteredName, boxId) in listed.value
      && (exists l :: l in listed.value && l.enteredName == enteredName)
  {
    var ins := InsertLink(tables, kind, catalog, enteredName, Some(boxId), Available);
    var t := tables.Of(kind);
    assert ins.tables.Of(kind)[|t|] == NewLink(catalog(kind, enteredName), enteredName, boxId);
  }

  /** Once a link to a box with a complete location chain is recorded, the
      already-in-a-box check no longer answers "0". */
  lemma InsertThenFound(tables: LinkTables, kind: Kind, catalog: Catalog, g: Graph, enteredName: string,
                        b: Box, f: Freezer, loc: Location)
    requires enteredName != ""
    requires b in g.boxes && Chains(g, b, f, loc)
    ensures var ins := InsertLink(tables, kind, catalog, enteredName, Some(b.id), Available);
      AlreadyInABox(ins.tables, kind, g, enteredName, Available, Whole).value.StoredAt?
  {
    var ins := InsertLink(tables, kind, catalog, enteredName, Some(b.id), Available);
    var l := ins.tables.Of(kind)[|tables.Of(kind)|];
    assert l in ins.tables.Of(kind) && LinkChains(g, l, b, f, loc);
  }

  /** After a delete the name is stored nowhere. */
  lemma DeleteThenNotStored(tables: LinkTables, kind: Kind, g: Graph, enteredName: string)
    requires enteredName != ""
    ensures var del := DeleteLink(tables, kind, enteredName, Available);
      AlreadyInABox(del.state, kind, g, enteredName, Available, Whole) == Ok(NotStored)
  {
  }

  /** Deleting twice leaves the tables as deleting once, and both succeed. */
  lemma DeleteLinkIdempotent(tables: LinkTables, kind: Kind, enteredName: string)
    requires enteredName != ""
    ensures var once := DeleteLink(tables, kind, enteredName, Available);
      && once.result.Ok?
      && DeleteLink(once.state, kind, enteredName, Available) == once
  {
    var once := DeleteLink(tables, kind, enteredName, Available);
    FilterIdempotent(tables.Of(kind), NotNamed(enteredName));
    assert once.state.With(kind, once.state.Of(kind)) == once.state by {
      match kind
      case Edna =>
      case Fish =>
    }
  }

  /** A rename moves the link: the old name is no longer found, and the new
      name is found wherever the target box stands. */
  lemma RenameMovesLink(tables: LinkTables, kind: Kind, g: Graph, oldName: string, newName: string,
                        b: Box, f: Freezer, loc: Location)
    requires oldName != "" && newName != "" && oldName != newName
    requires exists i :: 0 <= i < |tables.Of(kind)| && tables.Of(kind)[i].enteredName == oldName
    requires b in g.boxes && Chains(g, b, f, loc)
    ensures var up := UpdateLink(tables, kind, Some(b.id), oldName, newName, Available);
      && up.result.Ok?
      && AlreadyInABox(up.state, kind, g, oldName, Available, Whole) == Ok(NotStored)
      && AlreadyInABox(up.state, kind, g, newName, Available, Whole).value.StoredAt?
  {
    var up := UpdateLink(tables, kind, Some(b.id), oldName, newName, Available);
    var t, t' := tables.Of(kind), up.state.Of(kind);
    var i :| 0 <= i < |t| && t[i].enteredName == oldName;
    UpdatedRow(tables, kind, b.id, oldName, newName, i);
    RenameClearsOld(tables, kind, b.id, oldName, newName);
    NamelessNotStored(up.state, kind, g, oldName);
    ChainedStored(up.state, kind, g, newName, t'[i], b, f, loc);
  }

  /** A name no row has is stored nowhere. */
  lemma NamelessNotStored(tables: LinkTables, kind: Kind, g: Graph, name: string)
    requires name != ""
    requires forall l :: l in tables.Of(kind) ==> l.enteredName != name
    ensures AlreadyInABox(tables, kind, g, name, Available, Whole) == Ok(NotStored)
  {
  }

  /** A row with the name whose box reaches a location makes it stored. */
  lemma ChainedStored(tables: LinkTables, kind: Kind, g: Graph, name: string,
                      l: Link, b: Box, f: Freezer, loc: Location)
    requires name != ""
    requires l in tables.Of(kind) && l.enteredName == name && LinkChains(g, l, b, f, loc)
    ensures AlreadyInABox(tables, kind, g, name, Available, Whole).value.StoredAt?
  {
  }

  /** A stream broken before its first row hides a stored name: the check
      answers "not stored" for a name the whole stream finds. */
  lemma BrokenStreamHidesStored(tables: LinkTables, kind: Kind, g: Graph, name: string,
                                l: Link, b: Box, f: Freezer, loc: Location)
    requires name != ""
    requires l in tables.Of(kind) && l.enteredName == name && LinkChains(g, l, b, f, loc)
    ensures AlreadyInABox(tables, kind, g, name, Available, Whole).value.StoredAt?
    ensures AlreadyInABox(tables, kind, g, name, Available, BreaksAfter(0)) == Ok(NotStored)
    ensures AlreadyMessage(kind, AlreadyInABox(tables, kind, g, name, Available, BreaksAfter(0)).value) == "0"
  {
  }

  /** What a successful update does to row `i`, given some row has the name. */
  lemma UpdatedRow(tables: LinkTables, kind: Kind, boxId: int, oldName: string, newName: string, i: nat)
    requires oldName != "" && newName != ""
    requires i < |tables.Of(kind)|
    requires exists k :: 0 <= k < |tables.Of(kind)| && tables.Of(kind)[k].enteredName == oldName
    ensures var up := UpdateLink(tables, kind, Some(boxId), oldName, newName, Available);
      var t, t' := tables.Of(kind), up.state.Of(kind);
      && up.result.Ok? && |t'| == |t|
      && (t[i].enteredName == oldName ==> t'[i].enteredName == newName && t'[i].boxId == boxId)
      && (t[i].enteredName != oldName ==> t'[i] == t[i])
  {
    var up := UpdateLink(tables, kind, Some(boxId), oldName, newName, Available);
    assert up.result != Err(NotFound);
  }

  /** After a successful rename no row keeps the old name. */
  lemma RenameClearsOld(tables: LinkTables, kind: Kind, boxId: int, oldName: string, newName: string)
    requires oldName != "" && newName != "" && oldName != newName
    ensures var up := UpdateLink(tables, kind, Some(boxId), oldName, newName, Available);
      up.result.Ok? ==> forall l :: l in up.state.Of(kind) ==> l.enteredName != oldName
  {
    var up := UpdateLink(tables, kind, Some(boxId), oldName, newName, Available);
    if up.result.Ok? {
      var t' := up.state.Of(kind);
      forall l | l in t'
        ensures l.enteredName != oldName
      {
        var k :| 0 <= k < |t'| && t'[k] == l;
      }
    }
  }

  /** Inserting a name no row has keeps names unique. The client's
      already-in-a-box check does not establish that premise: see
      `NotStoredIsNotFresh`. */
  lemma InsertFreshKeepsUnique(tables: LinkTables, kind: Kind, catalog: Catalog, enteredName: string, boxId: int)
    requires enteredName != ""
    requires UniqueNames(tables.Of(kind))
    requires forall l :: l in tables.Of(kind) ==> l.enteredName != enteredName
    ensures UniqueNames(InsertLink(tables, kind, catalog, enteredName, Some(boxId), Available).tables.Of(kind))
  {
    var t := tables.Of(kind);
    var t' := InsertLink(tables, kind, catalog, enteredName, Some(boxId), Available).tables.Of(kind);
    forall i, j | 0 <= i < j < |t'|
      ensures t'[i].enteredName != t'[j].enteredName
    {
      assert t'[i] == t[i];
      if j < |t| {
        assert t'[j] == t[j];
      } else {
        assert t[i] in t;
      }
    }
  }

  /** A link whose box no longer exists reaches no location, so the
      already-in-a-box check answers NotStored although the name is in the
      table, and inserting the name again duplicates it. */
  lemma NotStoredIsNotFresh(kind: Kind, catalog: Catalog, name: string, boxId: int)
    requires name != ""
    ensures var tables := LinkTables([], []).With(kind, [Link(None, name, boxId)]);
      && AlreadyInABox(tables, kind, Graph([], [], []), name, Available, Whole) == Ok(NotStored)
      && !UniqueNames(InsertLink(tables, kind, catalog, name, Some(boxId), Available).tables.Of(kind))
  {
    var tables := LinkTables([], []).With(kind, [Link(None, name, boxId)]);
    InsertExistingDuplicates(tables, kind, catalog, name, boxId);
  }

  /** The service itself does not keep names unique: inserting a name that
      is already linked adds a second row with it. */
  lemma InsertExistingDuplicates(tables: LinkTables, kind: Kind, catalog: Catalog, enteredName: string, boxId: int)
    requires enteredName != ""
    requires exists l :: l in tables.Of(kind) && l.enteredName == enteredName
    ensures !UniqueNames(InsertLink(tables, kind, catalog, enteredName, Some(boxId), Available).tables.Of(kind))
  {
    var t := tables.Of(kind);
    var t' := InsertLink(tables, kind, catalog, enteredName, Some(boxId), Available).tables.Of(kind);
    var l :| l in t && l.enteredName == enteredName;
    var i :| 0 <= i < |t| && t[i] == l;
    assert t'[i] == t[i];
    assert t'[i].enteredName == t'[|t|].enteredName;
  }

  lemma {:induction false} FilterKeepsUnique(t: seq<Link>, p: Link -> bool)
    requires UniqueNames(t)
    ensures UniqueNames(Filter(t, p))
  {
    if t != [] {
      FilterKeepsUnique(t[1..], p);
      var rest := Filter(t[1..], p);
      if p(t[0]) {
        var r := [t[0]] + rest;
        forall j | 0 < j < |r|
          ensures r[0].enteredName != r[j].enteredName
        {
          assert r[j] in rest;
          var k :| 0 <= k < |t[1..]| && t[1..][k] == r[j];
          assert t[k + 1] == r[j];
        }
        forall i, j | 0 <= i < j < |r|
          ensures r[i].enteredName != r[j].enteredName
        {
          if i > 0 {
            assert r[i] == rest[i - 1] && r[j] == rest[j - 1];
          }
        }
      }
    }
  }

  /** Deleting never creates duplicate names. */
  lemma DeleteKeepsUnique(tables: LinkTables, kind: Kind, enteredName: string, store: Store)
    requires UniqueNames(tables.Of(kind))
    ensures UniqueNames(DeleteLink(tables, kind, enteredName, store).state.Of(kind))
  {
    if enteredName != "" && store.Available? {
      FilterKeepsUnique(tables.Of(kind), NotNamed(enteredName));
    }
  }

  /** The rename of an update can itself create a duplicate: renaming onto a
      name that another row already has. */
  lemma RenameOntoExistingDuplicates(tables: LinkTables, kind: Kind, boxId: int, oldName: string, newName: string)
    requires oldName != "" && newName != "" && oldName != newName
    requires exists i :: 0 <= i < |tables.Of(kind)| && tables.Of(kind)[i].enteredName == oldName
    requires exists j :: 0 <= j < |tables.Of(kind)| && tables.Of(kind)[j].enteredName == newName
    ensures !UniqueNames(UpdateLink(tables, kind, Some(boxId), oldName, newName, Available).state.Of(kind))
  {
    var t := tables.Of(kind);
    var up := UpdateLink(tables, kind, Some(boxId), oldName, newName, Available);
    var t' := up.state.Of(kind);
    var i :| 0 <= i < |t| && t[i].enteredName == oldName;
    var j :| 0 <= j < |t| && t[j].enteredName == newName;
    UpdatedRow(tables, kind, boxId, oldName, newName, i);
    UpdatedRow(tables, kind, boxId, oldName, newName, j);
    SharedNameNotUnique(t', i, j);
  }

  /** Two different rows with one name break uniqueness. */
  lemma SharedNameNotUnique(t: seq<Link>, i: nat, j: nat)
    requires i < |t| && j < |t| && i != j
    requires t[i].enteredName == t[j].enteredName
    ensures !UniqueNames(t)
  {
    if i < j {
      assert !(t[i].enteredName != t[j].enteredName);
    } else {
      assert !(t[j].enteredName != t[i].enteredName);
    }
  }
}

=== FILE: links_scenarios.dfy ===
/** Worked examples of the link service on a small inventory: one lab room
    on floor 3 with one freezer holding two boxes. */
module LinkScenarios {
  import opened Wrappers
  import opened Seqs
  import opened Locations
  import opened SpecimenLinks

  const Genetics: Location := Location(1, "Genetics", "3")
  const F1: Freezer := Freezer(10, 1, "F1", "ULT-80")
  const B1: Box := Box(100, "B1", 10, 2)
  const B2: Box := Box(200, "B2", 10, 5)
  const Lab: Graph := Graph([Genetics], [F1], [B1, B2])

  /** A catalogue that knows "FISH-42" under the canonical "FISH-0042" as
      identifier 7, and nothing else. */
  function SmallCatalog(kind: Kind, name: string): Reply
  {
    if kind == Fish && name == "FISH-42" then Reply(7, "FISH-0042") else Reply(-1, "")
  }

  /** An unknown eDNA name is recorded unlinked with a warning, and is then
      found in B1 with B1's freezer, lab and floor. */
  lemma UnresolvedEdnaIsRecordedAndFound()
    ensures var ins := InsertLink(LinkTables([], []), Edna, SmallCatalog, "EDNA-001", Some(B1.id), Available);
      && ins.result == Ok(Unresolved)
      && ins.tables.Of(Edna) == [Link(None, "EDNA-001", B1.id)]
      && AlreadyInABox(ins.tables, Edna, Lab, "EDNA-001", Available, Whole)
         == Ok(StoredAt(LocationSummary(2, "EDNA-001", "B1", "F1", "ULT-80", "Genetics", "3")))
  {
    var ins := InsertLink(LinkTables([], []), Edna, SmallCatalog, "EDNA-001", Some(B1.id), Available);
    var l := Link(None, "EDNA-001", B1.id);
    assert ins.tables.Of(Edna) == [l];
    var s := LocationSummary(2, "EDNA-001", "B1", "F1", "ULT-80", "Genetics", "3");
    ConcatMapSingleton(Genetics, AtLocation(F1));
    ConcatMapSingleton(F1, InFreezer(Lab, B1));
    assert Places(Lab, B1) == [Place(F1, Genetics)];
    ConcatMapSingleton(Place(F1, Genetics), SummaryRow(l, B1));
    assert BoxRows(Lab, l)(B1) == [s];
    assert BoxRows(Lab, l)(B2) == [];
    ConcatMapSingleton(B2, BoxRows(Lab, l));
    ConcatMapAppend([B1], B2, BoxRows(Lab, l));
    ConcatMapSingleton(B1, BoxRows(Lab, l));
    assert [B1] + [B2] == Lab.boxes;
    assert ConcatMap(Lab.boxes, BoxRows(Lab, l)) == [s];
    ConcatMapSingleton(l, LinkRows(Lab, "EDNA-001"));
    assert LocationsOf(Lab, [l], "EDNA-001") == [s];
  }

  /** A fish name the catalogue knows under another name is linked to its
      identifier and the substitution is reported. */
  lemma AliasedFishIsLinked()
    ensures var ins := InsertLink(LinkTables([], []), Fish, SmallCatalog, "FISH-42", Some(B2.id), Available);
      && ins.result == Ok(MatchedTo("FISH-0042"))
      && ins.tables.Of(Fish) == [Link(Some(7), "FISH-42", B2.id)]
      && InsertMessage(Fish, ins.result.value) != ""
  {
  }
}

=== FILE: locations.dfy ===
/** The location graph (freezer location → freezer → box) and the box
    handlers of backend/boxes.go.

    Tables are sequences in storage order. A request parameter that names an
    integer column is an `Option<int>`: `None` is the empty query value. The
    database rejects a non-numeric value while it runs the statement: an
    insert, update or delete then fails (`Store.Failing`), while a listing
    reads it as a row stream broken before its first row
    (`Stream.BreaksAfter(0)`) and answers with no rows. */
module Locations {
  import opened Wrappers
  import opened Seqs

  /** A row of `freezer_locations`: a lab room on a floor. */
  datatype Location = Location(id: int, lab: string, floor: string)

  /** The columns of `freezer` this core reads. */
  datatype Freezer = Freezer(id: int, locationId: int, name: string, model: string)

  /** A row of `boxes`. Several boxes may share a (freezer, shelf) pair. */
  datatype Box = Box(id: int, name: string, freezerId: int, shelf: int)

  datatype Graph = Graph(locations: seq<Location>, freezers: seq<Freezer>, boxes: seq<Box>)

  /** A freezer together with the location it stands in. */
  datatype Place = Place(freezer: Freezer, location: Location)

  /** One row of the all-boxes listing. */
  datatype BoxInFreezer = BoxInFreezer(
    lab: string, floor: string, freezerName: string,
    freezerId: int, boxId: int, shelf: int)

  /** `b` joins `f` and `l`: `b.freezer_id = f.id` and `fl.id = f.freezer_location_id`,
      both rows present in the graph. */
  ghost predicate Chains(g: Graph, b: Box, f: Freezer, l: Location)
  {
    f in g.freezers && l in g.locations && f.id == b.freezerId && l.id == f.locationId
  }

  /** The location rows freezer `f` stands in, paired with `f`. */
  function AtLocation(f: Freezer): Location -> seq<Place>
  {
    (l: Location) => if l.id == f.locationId then [Place(f, l)] else []
  }

  /** The places freezer `f` contributes to box `b`'s join. */
  function InFreezer(g: Graph, b: Box): Freezer -> seq<Place>
  {
    (f: Freezer) => if f.id == b.freezerId then ConcatMap(g.locations, AtLocation(f)) else []
  }

  /** The freezer-location pairs box `b` joins to, in table order. */
  function Places(g: Graph, b: Box): seq<Place>
  {
    ConcatMap(g.freezers, InFreezer(g, b))
  }

  lemma PlacesSound(g: Graph, b: Box, p: Place)
    requires p in Places(g, b)
    ensures Chains(g, b, p.freezer, p.location)
  {
    ConcatMapMember(g.freezers, InFreezer(g, b), p);
    var i :| 0 <= i < |g.freezers| && p in InFreezer(g, b)(g.freezers[i]);
    var f := g.freezers[i];
    ConcatMapMember(g.locations, AtLocation(f), p);
    var j :| 0 <= j < |g.locations| && p in AtLocation(f)(g.locations[j]);
  }

  lemma PlacesComplete(g: Graph, b: Box, p: Place)
    requires Chains(g, b, p.freezer, p.location)
    ensures p in Places(g, b)
  {
    var i :| 0 <= i < |g.freezers| && g.freezers[i] == p.freezer;
    var j :| 0 <= j < |g.locations| && g.locations[j] == p.location;
    assert p in AtLocation(p.freezer)(g.locations[j]);
    ConcatMapMember(g.locations, AtLocation(p.freezer), p);
    assert p in InFreezer(g, b)(g.freezers[i]);
    ConcatMapMember(g.freezers, InFreezer(g, b), p);
  }

  /** The places of a box are exactly the freezer-location pairs it chains to. */
  lemma PlacesMember(g: Graph, b: Box, p: Place)
    ensures p in Places(g, b) <==> Chains(g, b, p.freezer, p.location)
  {
    if p in Places(g, b) {
      PlacesSound(g, b, p);
    }
    if Chains(g, b, p.freezer, p.location) {
      PlacesComplete(g, b, p);
    }
  }

  function BoxRow(b: Box, p: Place): BoxInFreezer
  {
    BoxInFreezer(p.location.lab, p.location.floor, p.freezer.name, b.freezerId, b.id, b.shelf)
  }

  function RowOf(b: Box): Place -> seq<BoxInFreezer>
  {
    (p: Place) => [BoxRow(b, p)]
  }

  function RowsOf(g: Graph): Box -> seq<BoxInFreezer>
  {
    (b: Box) => ConcatMap(Places(g, b), RowOf(b))
  }

  /** The inner join box → freezer → freezer location, rows in box order. */
  function BoxesInFreezers(g: Graph): seq<BoxInFreezer>
  {
    ConcatMap(g.boxes, RowsOf(g))
  }

  lemma JoinRowSound(g: Graph, row: BoxInFreezer)
    requires row in BoxesInFreezers(g)
    ensures exists b, f, l :: b in g.boxes && Chains(g, b, f, l) && row == BoxRow(b, Place(f, l))
  {
    ConcatMapMember(g.boxes, RowsOf(g), row);
    var i :| 0 <= i < |g.boxes| && row in RowsOf(g)(g.boxes[i]);
    var b := g.boxes[i];
    ConcatMapMember(Places(g, b), RowOf(b), row);
    var j :| 0 <= j < |Places(g, b)| && row in RowOf(b)(Places(g, b)[j]);
    var p := Places(g, b)[j];
    PlacesMember(g, b, p);
    assert b in g.boxes && Chains(g, b, p.freezer, p.location) && row == BoxRow(b, Place(p.freezer, p.location));
  }

  lemma JoinRowComplete(g: Graph, b: Box, f: Freezer, l: Location)
    requires b in g.boxes && Chains(g, b, f, l)
    ensures BoxRow(b, Place(f, l)) in BoxesInFreezers(g)
  {
    var row := BoxRow(b, Place(f, l));
    var i :| 0 <= i < |g.boxes| && g.boxes[i] == b;
    PlacesMember(g, b, Place(f, l));
    var j :| 0 <= j < |Places(g, b)| && Places(g, b)[j] == Place(f, l);
    assert row in RowOf(b)(Places(g, b)[j]);
    ConcatMapMember(Places(g, b), RowOf(b), row);
    assert row in RowsOf(g)(g.boxes[i]);
    ConcatMapMember(g.boxes, RowsOf(g), row);
  }

  /** A row of the join is exactly a box with a complete chain. */
  lemma JoinRowMember(g: Graph, row: BoxInFreezer)
    ensures row in BoxesInFreezers(g) <==>
      exists b, f, l :: b in g.boxes && Chains(g, b, f, l) && row == BoxRow(b, Place(f, l))
  {
    if row in BoxesInFreezers(g) {
      JoinRowSound(g, row);
    }
    if exists b, f, l :: b in g.boxes && Chains(g, b, f, l) && row == BoxRow(b, Place(f, l)) {
      var b, f, l :| b in g.boxes && Chains(g, b, f, l) && row == BoxRow(b, Place(f, l));
      JoinRowComplete(g, b, f, l);
    }
  }

  /** GetAllBoxes: one row per box whose freezer and freezer location both
      exist, carrying that chain's lab, floor and freezer name, as far as
      the row stream delivers them. */
  function GetAllBoxes(g: Graph, store: Store, stream: Stream): (r: Result<seq<BoxInFreezer>>)
    ensures store.Failing? <==> r == Err(ServerError)
    ensures r.Ok? <==> store.Available?
    ensures r.Ok? ==> forall row :: row in r.value ==>
      exists b, f, l :: b in g.boxes && Chains(g, b, f, l) && row == BoxRow(b, Place(f, l))
    ensures r.Ok? && stream.Whole? ==> forall row :: row in r.value <==>
      exists b, f, l :: b in g.boxes && Chains(g, b, f, l) && row == BoxRow(b, Place(f, l))
    ensures r.Ok? && stream.BreaksAfter? ==> |r.value| <= stream.read
  {
    if store.Failing? then Err(ServerError)
    else
      var joined := BoxesInFreezers(g);
      var rows := Received(stream, joined);
      assert forall row :: row in joined <==>
        exists b, f, l :: b in g.boxes && Chains(g, b, f, l) && row == BoxRow(b, Place(f, l)) by {
        forall row
          ensures row in joined <==>
            exists b, f, l :: b in g.boxes && Chains(g, b, f, l) && row == BoxRow(b, Place(f, l))
        {
          JoinRowMember(g, row);
        }
      }
      assert forall row :: row in rows ==> row in joined by {
        forall row | row in rows
          ensures row in joined
        {
          ReceivedMember(stream, joined, row);
        }
      }
      Ok(rows)
  }

  /** A broken stream gives the first rows of the whole listing. */
  lemma GetAllBoxesBroken(g: Graph, read: nat)
    ensures var whole := GetAllBoxes(g, Available, Whole).value;
      var part := GetAllBoxes(g, Available, BreaksAfter(read)).value;
      && part <= whole
      && |part| == if read <= |whole| then read else |whole|
  {
  }

  /** GetBoxesByFreezer: the boxes of one freezer, in table order, as far
      as the row stream delivers them. An empty freezer id is answered with
      a 500, not a 400; a freezer id that is no number fails while the query
      runs, so it reads as an empty listing. */
  function GetBoxesByFreezer(boxes: seq<Box>, freezerId: Option<int>, store: Store, stream: Stream)
    : (r: Result<seq<Box>>)
    ensures freezerId.None? || store.Failing? <==> r == Err(ServerError)
    ensures r.Ok? <==> freezerId.Some? && store.Available?
    ensures r.Ok? ==> forall b :: b in r.value ==> b in boxes && b.freezerId == freezerId.value
    ensures r.Ok? && stream.Whole? ==>
      forall b :: b in r.value <==> b in boxes && b.freezerId == freezerId.value
    ensures r.Ok? && stream.Whole? ==>
      forall b :: multiset(r.value)[b] == if b.freezerId == freezerId.value then multiset(boxes)[b] else 0
    ensures r.Ok? && stream.BreaksAfter? ==> |r.value| <= stream.read
  {
    if freezerId.None? || store.Failing? then Err(ServerError)
    else
      var selected := Filter(boxes, InFreezerNumbered(freezerId.value));
      FilterCounts(boxes, InFreezerNumbered(freezerId.value));
      var rows := Received(stream, selected);
      assert forall b :: b in rows ==> b in selected by {
        forall b | b in rows
          ensures b in selected
        {
          ReceivedMember(stream, selected, b);
        }
      }
      Ok(rows)
  }

  /** A broken stream gives the first boxes of the whole listing. */
  lemma GetBoxesByFreezerBroken(boxes: seq<Box>, freezerId: int, read: nat)
    ensures var whole := GetBoxesByFreezer(boxes, Some(freezerId), Available, Whole).value;
      var part := GetBoxesByFreezer(boxes, Some(freezerId), Available, BreaksAfter(read)).value;
      && part <= whole
      && |part| == if read <= |whole| then read else |whole|
  {
  }

  function InFreezerNumbered(freezerId: int): Box -> bool
  {
    (b: Box) => b.freezerId == freezerId
  }

  /** InsertBox: all of freezer id, name and shelf are required; the new row
      gets the identifier `newId` the database's sequence hands out. */
  function InsertBox(boxes: seq<Box>, freezerId: Option<int>, name: string, shelf: Option<int>,
                     newId: int, store: Store): (r: Step<seq<Box>, ()>)
    ensures freezerId.None? || name == "" || shelf.None? ==> r == Step(boxes, Err(BadRequest))
    ensures r.result.Err? ==> r.state == boxes
    ensures r.result.Ok? <==> freezerId.Some? && name != "" && shelf.Some? && store.Available?
    ensures freezerId.Some? && name != "" && shelf.Some? && store.Failing? ==> r.result == Err(ServerError)
    ensures r.result.Ok? ==>
      && |r.state| == |boxes| + 1
      && r.state[..|boxes|] == boxes
      && r.state[|boxes|] == Box(newId, name, freezerId.value, shelf.value)
  {
    if freezerId.None? || name == "" || shelf.None? then Step(boxes, Err(BadRequest))
    else if store.Failing? then Step(boxes, Err(ServerError))
    else Step(boxes + [Box(newId, name, freezerId.value, shelf.value)], Ok(()))
  }

  /** DeleteBox: removes the box with that id; deleting an id no box has is
      still a success. */
  function DeleteBox(boxes: seq<Box>, boxId: Option<int>, store: Store): (r: Step<seq<Box>, ()>)
    ensures boxId.None? ==> r == Step(boxes, Err(BadRequest))
    ensures r.result.Err? ==> r.state == boxes
    ensures r.result.Ok? <==> boxId.Some? && store.Available?
    ensures boxId.Some? && store.Failing? ==> r.result == Err(ServerError)
    ensures r.result.Ok? ==> forall b :: b in r.state <==> b in boxes && b.id != boxId.value
    ensures r.result.Ok? ==>
      forall b :: multiset(r.state)[b] == if b.id != boxId.value then multiset(boxes)[b] else 0
  {
    if boxId.None? then Step(boxes, Err(BadRequest))
    else if store.Failing? then Step(boxes, Err(ServerError))
    else
      FilterCounts(boxes, NotNumbered(boxId.value));
      Step(Filter(boxes, NotNumbered(boxId.value)), Ok(()))
  }

  function NotNumbered(boxId: int): Box -> bool
  {
    (b: Box) => b.id != boxId
  }

  /** UpdateBox: all four fields are required; the box with that id gets the
      new freezer, name and shelf; no such box is a 404 and changes nothing. */
  function UpdateBox(boxes: seq<Box>, freezerId: Option<int>, name: string, boxId: Option<int>,
                     shelf: Option<int>, store: Store): (r: Step<seq<Box>, ()>)
    ensures freezerId.None? || name == "" || boxId.None? || shelf.None? ==> r == Step(boxes, Err(BadRequest))
    ensures r.result.Err? ==> r.state == boxes
    ensures freezerId.Some? && name != "" && boxId.Some? && shelf.Some? && store.Available? ==>
      (r.result == Err(NotFound) <==> forall i :: 0 <= i < |boxes| ==> boxes[i].id != boxId.value)
    // with every field present, the store decides between 500 and 404, and success needs it
    ensures freezerId.Some? && name != "" && boxId.Some? && shelf.Some? && r.result.Err? ==>
      r.result.failure == (if store.Failing? then ServerError else NotFound)
    ensures r.result.Ok? ==> store.Available?
    ensures r.result.Ok? ==>
      && |r.state| == |boxes|
      && forall i :: 0 <= i < |boxes| ==>
           r.state[i] == (if boxes[i].id == boxId.value
                          then Box(boxes[i].id, name, freezerId.value, shelf.value)
                          else boxes[i])
  {
    if freezerId.None? || name == "" || boxId.None? || shelf.None? then Step(boxes, Err(BadRequest))
    else if store.Failing? then Step(boxes, Err(ServerError))
    else
      var matches := (b: Box) => b.id == boxId.value;
      if Count(boxes, matches) == 0 then Step(boxes, Err(NotFound))
      else Step(MapWhere(boxes, matches, (b: Box) => Box(b.id, name, freezerId.value, shelf.value)), Ok(()))
  }

  /** MoveAllBoxesToShelf: every box on (oldShelf, oldFreezer) moves to
      (newShelf, newFreezer). There is no presence check and no rows-affected
      check: an empty parameter reaches the database, which cannot convert it
      to an integer, and a move that matches no box succeeds. */
  function MoveAllBoxesToShelf(boxes: seq<Box>, oldShelf: Option<int>, newShelf: Option<int>,
                               oldFreezer: Option<int>, newFreezer: Option<int>, store: Store)
    : (r: Step<seq<Box>, ()>)
    ensures r.result.Err? ==> r.state == boxes && r.result.failure == ServerError
    ensures r.result.Ok? <==>
      oldShelf.Some? && newShelf.Some? && oldFreezer.Some? && newFreezer.Some? && store.Available?
    ensures r.result.Ok? ==>
      && |r.state| == |boxes|
      && forall i :: 0 <= i < |boxes| ==>
           && r.state[i].id == boxes[i].id
           && r.state[i].name == boxes[i].name
           && (if boxes[i].shelf == oldShelf.value && boxes[i].freezerId == oldFreezer.value
               then r.state[i].shelf == newShelf.value && r.state[i].freezerId == newFreezer.value
               else r.state[i] == boxes[i])
  {
    if oldShelf.None? || newShelf.None? || oldFreezer.None? || newFreezer.None? || store.Failing? then
      Step(boxes, Err(ServerError))
    else
      Step(MapWhere(boxes, OnShelf(oldShelf.value, oldFreezer.value), MoveTo(newShelf.value, newFreezer.value)),
           Ok(()))
  }

  /** Whether a box sits on `shelf` of freezer `freezerId`. */
  function OnShelf(shelf: int, freezerId: int): Box -> bool
  {
    (b: Box) => b.shelf == shelf && b.freezerId == freezerId
  }

  /** The same box, placed on `shelf` of freezer `freezerId`. */
  function MoveTo(shelf: int, freezerId: int): Box -> Box
  {
    (b: Box) => Box(b.id, b.name, freezerId, shelf)
  }

  /** A successful bulk move onto a different shelf empties the old shelf and
      puts every box it held on the new one, next to those already there. */
  lemma {:induction false} MoveAllBoxesToShelfCounts(boxes: seq<Box>, oldShelf: int, newShelf: int,
                                                     oldFreezer: int, newFreezer: int)
    requires (oldShelf, oldFreezer) != (newShelf, newFreezer)
    ensures var r := MoveAllBoxesToShelf(boxes, Some(oldShelf), Some(newShelf), Some(oldFreezer), Some(newFreezer), Available);
      && r.result.Ok?
      && Count(r.state, OnShelf(oldShelf, oldFreezer)) == 0
      && Count(r.state, OnShelf(newShelf, newFreezer))
         == Count(boxes, OnShelf(oldShelf, oldFreezer)) + Count(boxes, OnShelf(newShelf, newFreezer))
  {
    var r := MoveAllBoxesToShelf(boxes, Some(oldShelf), Some(newShelf), Some(oldFreezer), Some(newFreezer), Available);
    assert r.state == MapWhere(boxes, OnShelf(oldShelf, oldFreezer), MoveTo(newShelf, newFreezer));
    MoveCounts(boxes, OnShelf(oldShelf, oldFreezer), OnShelf(newShelf, newFreezer), MoveTo(newShelf, newFreezer));
  }

  lemma {:induction false} MoveCounts(boxes: seq<Box>, src: Box -> bool, dst: Box -> bool, move: Box -> Box)
    requires forall b :: src(b) ==> dst(move(b)) && !src(move(b))
    requires forall b :: src(b) ==> !dst(b)
    ensures Count(MapWhere(boxes, src, move), src) == 0
    ensures Count(MapWhere(boxes, src, move), dst) == Count(boxes, src) + Count(boxes, dst)
  {
    if boxes != [] {
      var m := MapWhere(boxes, src, move);
      assert m[1..] == MapWhere(boxes[1..], src, move);
      MoveCounts(boxes[1..], src, dst, move);
    }
  }

  /** Deleting a box twice leaves the table as deleting it once. */
  lemma DeleteBoxIdempotent(boxes: seq<Box>, boxId: int)
    ensures var once := DeleteBox(boxes, Some(boxId), Available);
      && once.result.Ok?
      && DeleteBox(once.state, Some(boxId), Available) == once
  {
    FilterIdempotent(boxes, NotNumbered(boxId));
  }

  /** A box just inserted is listed under its freezer. */
  lemma InsertBoxThenList(boxes: seq<Box>, freezerId: int, name: string, shelf: int, newId: int)
    requires name != ""
    ensures var ins := InsertBox(boxes, Some(freezerId), name, Some(shelf), newId, Available);
      && ins.result.Ok?
      && Box(newId, name, freezerId, shelf) in GetBoxesByFreezer(ins.state, Some(freezerId), Available, Whole).value
  {
    var ins := InsertBox(boxes, Some(freezerId), name, Some(shelf), newId, Available);
    assert ins.state[|boxes|] == Box(newId, name, freezerId, shelf);
  }
}

=== FILE: navigation.dfy ===
/** The breadcrumb navigation of static/inventory.js: a stack of the room,
    freezer and box the user has opened, whose depth alone picks the view. */
module Navigation {
  import opened InventoryTree

  /** The `level` tag of a stack entry. */
  datatype Level = Rooms | Freezers | Boxes

  /** The `data` of a stack entry: the object that was clicked. */
  datatype Opened = RoomData(room: Room) | FreezerData(freezer: Freezer) | BoxData(box: Box)

  datatype NavEntry = NavEntry(level: Level, id: string, name: string, data: Opened)

  type Stack = seq<NavEntry>

  /** What `render` draws below the breadcrumbs. */
  datatype View =
    | RoomList
    | FreezerList(of: Opened)
    | ShelfVisual(of: Opened)
    | SampleList(of: Opened)
    | Blank

  /** render: depth 0, 1, 2, 3 show the room list, the freezers of the first
      entry, the shelves of the second, the samples of the third; any other
      depth draws nothing but the breadcrumbs. */
  function Render(stack: Stack): (v: View)
    ensures v.RoomList? <==> |stack| == 0
    ensures v.FreezerList? <==> |stack| == 1
    ensures v.ShelfVisual? <==> |stack| == 2
    ensures v.SampleList? <==> |stack| == 3
    ensures v.Blank? <==> |stack| > 3
    ensures 1 <= |stack| <= 3 ==> v.of == stack[|stack| - 1].data
  {
    if |stack| == 0 then RoomList
    else if |stack| == 1 then FreezerList(stack[0].data)
    else if |stack| == 2 then ShelfVisual(stack[1].data)
    else if |stack| == 3 then SampleList(stack[2].data)
    else Blank
  }

  /** The kind of view depends on nothing but the depth of the stack. */
  lemma RenderDependsOnDepth(a: Stack, b: Stack)
    requires |a| == |b|
    ensures Render(a).RoomList? == Render(b).RoomList?
    ensures Render(a).FreezerList? == Render(b).FreezerList?
    ensures Render(a).ShelfVisual? == Render(b).ShelfVisual?
    ensures Render(a).SampleList? == Render(b).SampleList?
    ensures Render(a).Blank? == Render(b).Blank?
  {
  }

  // ---------------------------------------------------------------------
  // Pushing entries

  /** A room clicked in the room list becomes the whole stack, and the next
      render lists that room's freezers. */
  function OpenRoom(room: Room): (r: Stack)
    ensures |r| == 1 && r[0].data == RoomData(room)
    ensures r[0].id == room.id && r[0].name == room.name
    ensures Render(r) == FreezerList(RoomData(room))
    ensures Breadcrumbs(r) == [Current(room.name)]
  {
    [NavEntry(Rooms, room.id, room.name, RoomData(room))]
  }

  /** A freezer clicked in the freezer list is pushed: the next render shows
      its shelves, and the crumb below it leads back to the stack before. */
  function OpenFreezer(stack: Stack, freezer: Freezer): (r: Stack)
    ensures |r| == |stack| + 1 && r[..|stack|] == stack
    ensures r[|stack|] == NavEntry(Freezers, freezer.id, freezer.name, FreezerData(freezer))
    ensures Render(stack).FreezerList? ==> Render(r) == ShelfVisual(FreezerData(freezer))
    ensures |stack| > 0 ==> ClickCrumb(r, |stack| - 1) == stack
  {
    stack + [NavEntry(Freezers, freezer.id, freezer.name, FreezerData(freezer))]
  }

  /** A box clicked on the shelf visual is pushed: the next render lists its
      samples, and the crumb below it leads back to the stack before. */
  function OpenBox(stack: Stack, box: Box): (r: Stack)
    ensures |r| == |stack| + 1 && r[..|stack|] == stack
    ensures r[|stack|] == NavEntry(Boxes, box.id, box.name, BoxData(box))
    ensures Render(stack).ShelfVisual? ==> Render(r) == SampleList(BoxData(box))
    ensures |stack| > 0 ==> ClickCrumb(r, |stack| - 1) == stack
  {
    stack + [NavEntry(Boxes, box.id, box.name, BoxData(box))]
  }

  // ---------------------------------------------------------------------
  // Breadcrumbs

  /** One breadcrumb: every entry but the last is a link carrying its index;
      the last is the current place. */
  datatype Crumb = Back(idx: nat, name: string) | Current(name: string)

  function CrumbAt(stack: Stack, i: nat): Crumb
    requires i < |stack|
  {
    if i == |stack| - 1 then Current(stack[i].name) else Back(i, stack[i].name)
  }

  function CrumbsFrom(stack: Stack, i: nat): seq<Crumb>
    requires i <= |stack|
    decreases |stack| - i
  {
    if i == |stack| then [] else [CrumbAt(stack, i)] + CrumbsFrom(stack, i + 1)
  }

  /** renderBreadcrumbs: one crumb per stack entry, in order. */
  function Breadcrumbs(stack: Stack): (r: seq<Crumb>)
    ensures |r| == |stack|
    ensures forall i :: 0 <= i < |stack| - 1 ==> r[i] == Back(i, stack[i].name)
    ensures |stack| > 0 ==> r[|stack| - 1] == Current(stack[|stack| - 1].name)
  {
    CrumbsFromIndexed(stack, 0);
    forall k | 0 <= k < |stack|
      ensures CrumbsFrom(stack, 0)[k] == CrumbAt(stack, k)
    {
      assert CrumbsFrom(stack, 0)[k - 0] == CrumbAt(stack, k);
    }
    CrumbsFrom(stack, 0)
  }

  lemma {:induction false} CrumbsFromIndexed(stack: Stack, i: nat)
    requires i <= |stack|
    ensures |CrumbsFrom(stack, i)| == |stack| - i
    ensures forall k :: i <= k < |stack| ==> CrumbsFrom(stack, i)[k - i] == CrumbAt(stack, k)
    decreases |stack| - i
  {
    if i < |stack| {
      var rest := CrumbsFrom(stack, i + 1);
      CrumbsFromIndexed(stack, i + 1);
      assert CrumbsFrom(stack, i) == [CrumbAt(stack, i)] + rest;
      forall k | i <= k < |stack|
        ensures CrumbsFrom(stack, i)[k - i] == CrumbAt(stack, k)
      {
        if k > i {
          assert CrumbsFrom(stack, i)[k - i] == rest[k - (i + 1)];
        }
      }
    }
  }

  /** The click handler: following the crumb with index `idx` keeps the
      first `idx + 1` entries (all of them when the stack is shorter). */
  function ClickCrumb(stack: Stack, idx: nat): (r: Stack)
    ensures |r| == if idx + 1 < |stack| then idx + 1 else |stack|
    ensures r == stack[..|r|]
  {
    if idx + 1 < |stack| then stack[..idx + 1] else stack
  }

  /** Following the same crumb twice is following it once. */
  lemma ClickCrumbIdempotent(stack: Stack, idx: nat)
    ensures ClickCrumb(ClickCrumb(stack, idx), idx) == ClickCrumb(stack, idx)
  {
  }

  /** Every link on screen leads to a strictly shorter stack ending at the
      entry the link names. */
  lemma BackShortens(stack: Stack, c: Crumb)
    requires c in Breadcrumbs(stack) && c.Back?
    ensures c.idx < |stack| - 1
    ensures |ClickCrumb(stack, c.idx)| == c.idx + 1 < |stack|
    ensures ClickCrumb(stack, c.idx)[c.idx].name == c.name
  {
    var crumbs := Breadcrumbs(stack);
    var k :| 0 <= k < |crumbs| && crumbs[k] == c;
  }

  // ---------------------------------------------------------------------
  // The stack the page can reach

  predicate EntryIsRoom(e: NavEntry)
  {
    e.data.RoomData? && e == NavEntry(Rooms, e.data.room.id, e.data.room.name, e.data)
  }

  predicate EntryIsFreezer(e: NavEntry)
  {
    e.data.FreezerData? && e == NavEntry(Freezers, e.data.freezer.id, e.data.freezer.name, e.data)
  }

  predicate EntryIsBox(e: NavEntry)
  {
    e.data.BoxData? && e == NavEntry(Boxes, e.data.box.id, e.data.box.name, e.data)
  }

  /** A box of one of the freezer's shelves. */
  predicate OnSomeShelf(f: Freezer, b: Box)
  {
    exists s :: s in f.shelves && b in s.boxes
  }

  /** A stack the clicks can build: a room of the tree, then one of its
      freezers, then a box on one of that freezer's shelves. */
  predicate WellFormed(inv: Inventory, stack: Stack)
  {
    && |stack| <= 3
    && (|stack| >= 1 ==> EntryIsRoom(stack[0]) && stack[0].data.room in inv.rooms)
    && (|stack| >= 2 ==> EntryIsFreezer(stack[1]) && stack[1].data.freezer in stack[0].data.room.freezers)
    && (|stack| >= 3 ==> EntryIsBox(stack[2]) && OnSomeShelf(stack[1].data.freezer, stack[2].data.box))
  }

  /** The clicks the room list, freezer list and shelf visual offer keep the
      stack well formed, and the next render shows what was clicked. */
  lemma OpenRoomWellFormed(inv: Inventory, room: Room)
    requires room in inv.rooms
    ensures WellFormed(inv, OpenRoom(room))
    ensures Render(OpenRoom(room)) == FreezerList(RoomData(room))
  {
  }

  lemma OpenFreezerWellFormed(inv: Inventory, stack: Stack, freezer: Freezer)
    requires WellFormed(inv, stack) && Render(stack).FreezerList?
    requires freezer in stack[0].data.room.freezers
    ensures WellFormed(inv, OpenFreezer(stack, freezer))
    ensures Render(OpenFreezer(stack, freezer)) == ShelfVisual(FreezerData(freezer))
  {
  }

  lemma OpenBoxWellFormed(inv: Inventory, stack: Stack, shelf: Shelf, box: Box)
    requires WellFormed(inv, stack) && Render(stack).ShelfVisual?
    requires shelf in stack[1].data.freezer.shelves && box in shelf.boxes
    ensures WellFormed(inv, OpenBox(stack, box))
    ensures Render(OpenBox(stack, box)) == SampleList(BoxData(box))
  {
  }

  /** On a stack the page built, following crumb `idx` goes back to the list
      of what entry `idx` holds. */
  lemma ClickCrumbShows(inv: Inventory, stack: Stack, idx: nat)
    requires WellFormed(inv, stack) && idx < |stack|
    ensures WellFormed(inv, ClickCrumb(stack, idx))
    ensures idx == 0 ==> Render(ClickCrumb(stack, idx)) == FreezerList(stack[0].data)
    ensures idx == 1 ==> Render(ClickCrumb(stack, idx)) == ShelfVisual(stack[1].data)
    ensures idx == 2 ==> Render(ClickCrumb(stack, idx)) == SampleList(stack[2].data)
  {
  }

  /** On a stack the page built, the view is never blank and always shows
      the contents of the deepest entry. */
  lemma WellFormedNeverBlank(inv: Inventory, stack: Stack)
    requires WellFormed(inv, stack)
    ensures !Render(stack).Blank?
    ensures |stack| == 1 ==> Render(stack) == FreezerList(RoomData(stack[0].data.room))
    ensures |stack| == 2 ==> Render(stack) == ShelfVisual(FreezerData(stack[1].data.freezer))
    ensures |stack| == 3 ==> Render(stack) == SampleList(BoxData(stack[2].data.box))
  {
  }
}

=== FILE: rooms.dfy ===
/** The paged room listing of backend/rooms.go: normalising `limit`,
    `offset` and `search`, numbering the statement's placeholders, and the
    page the statement selects from `freezer_locations`. */
module RoomPages {
  import opened Wrappers
  import opened Seqs
  import opened Text
  import opened Locations
  import Decimal

  const DefaultLimit: int := 200
  const MaxLimit: int := 1000
  const DefaultOffset: int := 0

  /** `limit`: a number in 1..1000, else 200. */
  function ParseLimit(limitStr: string): (limit: int)
    ensures 1 <= limit <= MaxLimit
    ensures limit != DefaultLimit ==> Decimal.Atoi(limitStr) == Some(limit)
    ensures (match Decimal.Atoi(limitStr)
             case Some(l) => 0 < l <= MaxLimit ==> limit == l
             case None => limit == DefaultLimit)
  {
    if limitStr != "" then
      match Decimal.Atoi(limitStr)
      case Some(l) => if l > 0 && l <= MaxLimit then l else DefaultLimit
      case None => DefaultLimit
    else DefaultLimit
  }

  /** `offset`: a non-negative number, else 0. */
  function ParseOffset(offsetStr: string): (offset: int)
    ensures offset >= 0
    ensures offset != DefaultOffset ==> Decimal.Atoi(offsetStr) == Some(offset)
    ensures (match Decimal.Atoi(offsetStr)
             case Some(o) => o >= 0 ==> offset == o
             case None => offset == DefaultOffset)
  {
    if offsetStr != "" then
      match Decimal.Atoi(offsetStr)
      case Some(o) => if o >= 0 then o else DefaultOffset
      case None => DefaultOffset
    else DefaultOffset
  }

  /** Whatever the client asks for in 1..1000 is honoured exactly. */
  lemma LimitHonoured(n: int)
    requires 1 <= n <= MaxLimit
    ensures ParseLimit(Decimal.Itoa(n)) == n
  {
    Decimal.AtoiItoa(n);
  }

  lemma OffsetHonoured(n: int)
    requires 0 <= n <= Decimal.MaxInt64
    ensures ParseOffset(Decimal.Itoa(n)) == n
  {
    Decimal.AtoiItoa(n);
  }

  /** A bound parameter of the listing statement. */
  datatype Arg = Pattern(text: string) | Number(n: int)

  /** The statement the handler sends: the optional search, the normalised
      limit and offset, the arguments in order, and the placeholder numbers
      (`$k`) written after LIMIT and OFFSET. */
  datatype PageQuery = PageQuery(search: Option<string>, limit: int, offset: int,
                                 args: seq<Arg>, limitSlot: nat, offsetSlot: nat)

  function PlanQuery(limitStr: string, offsetStr: string, searchStr: string): (q: PageQuery)
    ensures 1 <= q.limit <= MaxLimit && q.offset >= 0
    ensures q.limit == ParseLimit(limitStr) && q.offset == ParseOffset(offsetStr)
    ensures q.search == Given(searchStr)
    // each placeholder names the argument that holds its value
    ensures 1 <= q.limitSlot <= |q.args| && q.args[q.limitSlot - 1] == Number(q.limit)
    ensures 1 <= q.offsetSlot <= |q.args| && q.args[q.offsetSlot - 1] == Number(q.offset)
    ensures searchStr != "" ==>
      q.args == [Pattern("%" + searchStr + "%"), Number(q.limit), Number(q.offset)]
      && q.limitSlot == 2 && q.offsetSlot == 3
    ensures searchStr == "" ==>
      q.args == [Number(q.limit), Number(q.offset)] && q.limitSlot == 1 && q.offsetSlot == 2
  {
    var limit := ParseLimit(limitStr);
    var offset := ParseOffset(offsetStr);
    var args := if searchStr != "" then [Pattern("%" + searchStr + "%")] else [];
    PageQuery(Given(searchStr), limit, offset,
              args + [Number(limit), Number(offset)], |args| + 1, |args| + 2)
  }

  /** `WHERE lab ILIKE $1 OR floor ILIKE $1`, or every room without a search. */
  function Matches(search: Option<string>): Location -> bool
  {
    (room: Location) => match search
      case None => true
      case Some(s) => ContainsFold(room.lab, s) || ContainsFold(room.floor, s)
  }

  ghost predicate SortedByFloor(rooms: seq<Location>)
  {
    forall i, j :: 0 <= i < j < |rooms| ==> LexLe(rooms[i].floor, rooms[j].floor)
  }

  /** Places `x` before the first room whose floor is not below it. */
  function InsertByFloor(x: Location, rooms: seq<Location>): (r: seq<Location>)
    requires SortedByFloor(rooms)
    ensures SortedByFloor(r)
    ensures multiset(r) == multiset(rooms) + multiset{x}
  {
    if rooms == [] then [x]
    else if LexLe(x.floor, rooms[0].floor) then
      InsertFirstSorted(x, rooms);
      [x] + rooms
    else
      var rest := InsertByFloor(x, rooms[1..]);
      InsertLaterSorted(x, rooms, rest);
      [rooms[0]] + rest
  }

  /** `x` goes after the head: the head still leads the result. */
  lemma InsertLaterSorted(x: Location, rooms: seq<Location>, rest: seq<Location>)
    requires SortedByFloor(rooms) && rooms != [] && !LexLe(x.floor, rooms[0].floor)
    requires SortedByFloor(rest) && multiset(rest) == multiset(rooms[1..]) + multiset{x}
    ensures SortedByFloor([rooms[0]] + rest)
    ensures multiset([rooms[0]] + rest) == multiset(rooms) + multiset{x}
  {
    var pool := rooms[1..] + [x];
    assert rooms == [rooms[0]] + rooms[1..];
    LexLeTotal(x.floor, rooms[0].floor);
    forall k | 0 <= k < |pool|
      ensures LexLe(rooms[0].floor, pool[k].floor)
    {
      if k < |rooms| - 1 {
        assert pool[k] == rooms[k + 1];
      }
    }
    ConsSorted(rooms[0], rest, pool);
  }

  lemma InsertFirstSorted(x: Location, rooms: seq<Location>)
    requires SortedByFloor(rooms) && rooms != [] && LexLe(x.floor, rooms[0].floor)
    ensures SortedByFloor([x] + rooms)
  {
    var r := [x] + rooms;
    forall i, j | 0 <= i < j < |r|
      ensures LexLe(r[i].floor, r[j].floor)
    {
      if i == 0 {
        if j > 1 {
          LexLeTransitive(x.floor, rooms[0].floor, rooms[j - 1].floor);
        }
      } else {
        assert r[i] == rooms[i - 1] && r[j] == rooms[j - 1];
      }
    }
  }

  /** A room not above anything in a sorted sequence may head it; `pool`
      holds what the sequence is drawn from. */
  lemma ConsSorted(head: Location, rest: seq<Location>, pool: seq<Location>)
    requires SortedByFloor(rest)
    requires multiset(rest) == multiset(pool)
    requires forall k :: 0 <= k < |pool| ==> LexLe(head.floor, pool[k].floor)
    ensures SortedByFloor([head] + rest)
  {
    var r := [head] + rest;
    forall i, j | 0 <= i < j < |r|
      ensures LexLe(r[i].floor, r[j].floor)
    {
      if i == 0 {
        assert r[j] in multiset(pool);
        var k :| 0 <= k < |pool| && pool[k] == r[j];
      } else {
        assert r[i] == rest[i - 1] && r[j] == rest[j - 1];
      }
    }
  }

  /** `ORDER BY floor`, as an insertion sort. */
  function SortByFloor(rooms: seq<Location>): (r: seq<Location>)
    ensures SortedByFloor(r)
    ensures multiset(r) == multiset(rooms)
  {
    if rooms == [] then []
    else
      assert rooms == [rooms[0]] + rooms[1..];
      InsertByFloor(rooms[0], SortByFloor(rooms[1..]))
  }

  /** `LIMIT limit OFFSET offset`: skip `offset` rows, keep at most `limit`. */
  function Window<T>(s: seq<T>, offset: nat, limit: nat): (r: seq<T>)
    ensures |r| <= limit
    ensures offset <= |s| ==> r == s[offset..] [..if limit <= |s| - offset then limit else |s| - offset]
    ensures offset >= |s| ==> r == []
  {
    var start := if offset <= |s| then offset else |s|;
    var stop := if offset + limit <= |s| then offset + limit else |s|;
    s[start..stop]
  }

  /** The rows the statement selects. */
  function RunPage(rooms: seq<Location>, q: PageQuery): seq<Location>
    requires q.limit >= 1 && q.offset >= 0
  {
    Window(SortByFloor(Filter(rooms, Matches(q.search))), q.offset, q.limit)
  }

  /** GetFreezerRooms: the page of rooms, as far as the row stream
      delivers it. */
  function GetFreezerRooms(rooms: seq<Location>, limitStr: string, offsetStr: string, searchStr: string,
                           store: Store, stream: Stream): (r: Result<seq<Location>>)
    ensures store.Failing? <==> r == Err(ServerError)
    ensures r.Ok? <==> store.Available?
    ensures r.Ok? ==> |r.value| <= ParseLimit(limitStr)
    ensures r.Ok? ==> SortedByFloor(r.value)
    ensures r.Ok? ==> multiset(r.value) <= multiset(rooms)
    ensures r.Ok? && searchStr != "" ==>
      forall room :: room in r.value ==> ContainsFold(room.lab, searchStr) || ContainsFold(room.floor, searchStr)
    // the whole page is the window at the offset of an ordering of every matching room
    ensures r.Ok? && stream.Whole? ==>
      var matching := Filter(rooms, Matches(Given(searchStr)));
      var offset, limit := ParseOffset(offsetStr), ParseLimit(limitStr);
      && |r.value| == (if offset >= |matching| then 0
                       else if limit <= |matching| - offset then limit
                       else |matching| - offset)
      && exists ordered :: SortedByFloor(ordered) && multiset(ordered) == multiset(matching)
                           && r.value == Window(ordered, offset, limit)
    ensures r.Ok? && stream.BreaksAfter? ==> |r.value| <= stream.read
  {
    if store.Failing? then Err(ServerError)
    else
      var q := PlanQuery(limitStr, offsetStr, searchStr);
      var page := RunPage(rooms, q);
      PageFacts(rooms, q);
      PageOfOrdering(rooms, q);
      var rows := Received(stream, page);
      PrefixOfPage(page, rows, rooms);
      Ok(rows)
  }

  /** A broken stream gives the first rooms of the whole page. */
  lemma GetFreezerRoomsBroken(rooms: seq<Location>, limitStr: string, offsetStr: string, searchStr: string,
                              read: nat)
    ensures var whole := GetFreezerRooms(rooms, limitStr, offsetStr, searchStr, Available, Whole).value;
      var part := GetFreezerRooms(rooms, limitStr, offsetStr, searchStr, Available, BreaksAfter(read)).value;
      && part <= whole
      && |part| == if read <= |whole| then read else |whole|
  {
  }

  /** The first rooms of a sorted page drawn from `rooms` are a sorted page
      drawn from `rooms`, holding only rooms of the page. */
  lemma PrefixOfPage(page: seq<Location>, part: seq<Location>, rooms: seq<Location>)
    requires part <= page
    requires SortedByFloor(page)
    requires multiset(page) <= multiset(rooms)
    ensures SortedByFloor(part)
    ensures multiset(part) <= multiset(rooms)
    ensures forall room :: room in part ==> room in page
  {
    assert page == part + page[|part|..];
    forall i, j | 0 <= i < j < |part|
      ensures LexLe(part[i].floor, part[j].floor)
    {
      assert part[i] == page[i] && part[j] == page[j];
    }
  }

  /** The page holds as many rooms as the window over all matching rooms
      allows, and is that window over one floor ordering of them. */
  lemma PageOfOrdering(rooms: seq<Location>, q: PageQuery)
    requires q.limit >= 1 && q.offset >= 0
    ensures var matching := Filter(rooms, Matches(q.search));
      && |RunPage(rooms, q)| == (if q.offset >= |matching| then 0
                                 else if q.limit <= |matching| - q.offset then q.limit
                                 else |matching| - q.offset)
      && exists ordered :: SortedByFloor(ordered) && multiset(ordered) == multiset(matching)
                           && RunPage(rooms, q) == Window(ordered, q.offset, q.limit)
  {
    var matching := Filter(rooms, Matches(q.search));
    var ordered := SortByFloor(matching);
    assert |ordered| == |multiset(ordered)| == |multiset(matching)| == |matching|;
    assert RunPage(rooms, q) == Window(ordered, q.offset, q.limit);
  }

  lemma PageFacts(rooms: seq<Location>, q: PageQuery)
    requires q.limit >= 1 && q.offset >= 0
    ensures |RunPage(rooms, q)| <= q.limit
    ensures SortedByFloor(RunPage(rooms, q))
    ensures multiset(RunPage(rooms, q)) <= multiset(rooms)
    ensures forall room :: room in RunPage(rooms, q) ==> Matches(q.search)(room)
  {
    var matching := Filter(rooms, Matches(q.search));
    var ordered := SortByFloor(matching);
    var page := Window(ordered, q.offset, q.limit);
    assert page == RunPage(rooms, q);
    WindowSorted(ordered, q.offset, q.limit);
    WindowMultiset(ordered, q.offset, q.limit);
    forall room | room in page
      ensures Matches(q.search)(room)
    {
      assert room in multiset(page);
      assert room in multiset(matching);
    }
  }

  lemma WindowSorted(s: seq<Location>, offset: nat, limit: nat)
    requires SortedByFloor(s)
    ensures SortedByFloor(Window(s, offset, limit))
  {
    var start := if offset <= |s| then offset else |s|;
    var w := Window(s, offset, limit);
    forall i, j | 0 <= i < j < |w|
      ensures LexLe(w[i].floor, w[j].floor)
    {
      assert w[i] == s[start + i] && w[j] == s[start + j];
    }
  }

  lemma WindowMultiset<T>(s: seq<T>, offset: nat, limit: nat)
    ensures multiset(Window(s, offset, limit)) <= multiset(s)
  {
    var start := if offset <= |s| then offset else |s|;
    var stop := if offset + limit <= |s| then offset + limit else |s|;
    assert s == s[..start] + s[start..stop] + s[stop..];
  }

  /** Consecutive pages tile the ordered listing: the page at `offset` of
      size `a` followed by the page at `offset + a` of size `b` is the page
      at `offset` of size `a + b`. */
  lemma PagesTile<T>(s: seq<T>, offset: nat, a: nat, b: nat)
    ensures Window(s, offset, a) + Window(s, offset + a, b) == Window(s, offset, a + b)
  {
  }
}

=== FILE: seqs.dfy ===
/** Relational building blocks over tables held as sequences: selection
    (`Filter`), row-wise update (`MapWhere`) and the nested-loop join
    (`ConcatMap`), with the facts the handlers' contracts are built from. */
module Seqs {
  import opened Wrappers

  /** The rows of `s` that satisfy `p`, in table order (a SQL `WHERE`). */
  function Filter<T(!new)>(s: seq<T>, p: T -> bool): (r: seq<T>)
    ensures |r| <= |s|
    ensures forall x :: x in r <==> x in s && p(x)
    ensures multiset(r) <= multiset(s)
  {
    if s == [] then []
    else
      assert s == [s[0]] + s[1..];
      (if p(s[0]) then [s[0]] else []) + Filter(s[1..], p)
  }

  /** Selection keeps every copy of a row that satisfies `p` and no copy of
      one that does not: `Filter` has bag semantics, duplicates included. */
  lemma {:induction false} FilterCounts<T(!new)>(s: seq<T>, p: T -> bool)
    ensures forall x :: multiset(Filter(s, p))[x] == if p(x) then multiset(s)[x] else 0
  {
    if s != [] {
      FilterCounts(s[1..], p);
      assert s == [s[0]] + s[1..];
      assert Filter(s, p) == (if p(s[0]) then [s[0]] else []) + Filter(s[1..], p);
    }
  }

  /** Number of rows of `s` that satisfy `p` (the rows a statement affects). */
  function Count<T>(s: seq<T>, p: T -> bool): (n: nat)
    ensures n == 0 <==> forall i :: 0 <= i < |s| ==> !p(s[i])
    ensures n <= |s|
  {
    if s == [] then 0
    else (if p(s[0]) then 1 else 0) + Count(s[1..], p)
  }

  /** The first position whose element satisfies `p` (JavaScript's
      `findIndex`, with `None` for -1). */
  function FirstIndex<T>(s: seq<T>, p: T -> bool): (r: Option<nat>)
    ensures r.Some? ==> r.value < |s| && p(s[r.value])
    ensures r.Some? ==> forall k :: 0 <= k < r.value ==> !p(s[k])
    ensures r.None? <==> forall k :: 0 <= k < |s| ==> !p(s[k])
  {
    if s == [] then None
    else if p(s[0]) then Some(0)
    else match FirstIndex(s[1..], p)
      case None => None
      case Some(i) => Some(i + 1)
  }

  /** `s` without its element at `i` (JavaScript's `splice(i, 1)`). */
  function RemoveAt<T>(s: seq<T>, i: nat): (r: seq<T>)
    requires i < |s|
    ensures |r| == |s| - 1
    ensures multiset(r) + multiset{s[i]} == multiset(s)
  {
    assert s == s[..i] + [s[i]] + s[i + 1..];
    s[..i] + s[i + 1..]
  }

  /** Applies `f` to every row that satisfies `p` (a SQL `UPDATE … WHERE`). */
  function MapWhere<T>(s: seq<T>, p: T -> bool, f: T -> T): (r: seq<T>)
    ensures |r| == |s|
    ensures forall i :: 0 <= i < |s| ==> r[i] == (if p(s[i]) then f(s[i]) else s[i])
  {
    if s == [] then []
    else [if p(s[0]) then f(s[0]) else s[0]] + MapWhere(s[1..], p, f)
  }

  /** `f` applied to every element, the results concatenated in order. */
  function ConcatMap<T, U>(s: seq<T>, f: T -> seq<U>): seq<U>
  {
    if s == [] then [] else f(s[0]) + ConcatMap(s[1..], f)
  }

  lemma {:induction false} FilterAppend<T(!new)>(s: seq<T>, x: T, p: T -> bool)
    ensures Filter(s + [x], p) == Filter(s, p) + (if p(x) then [x] else [])
  {
    if s == [] {
      assert s + [x] == [x];
    } else {
      assert (s + [x])[1..] == s[1..] + [x];
      FilterAppend(s[1..], x, p);
    }
  }

  lemma {:induction false} FilterIdempotent<T(!new)>(s: seq<T>, p: T -> bool)
    ensures Filter(Filter(s, p), p) == Filter(s, p)
  {
    if s != [] {
      var rest := Filter(s[1..], p);
      FilterIdempotent(s[1..], p);
      if p(s[0]) {
        var r := [s[0]] + rest;
        assert Filter(s, p) == r;
        assert r[0] == s[0] && r[1..] == rest;
        assert Filter(r, p) == [s[0]] + Filter(rest, p);
      } else {
        assert Filter(s, p) == rest;
      }
    }
  }

  /** When every row satisfies `p`, selection keeps the whole table. */
  lemma {:induction false} FilterKeepsAll<T(!new)>(s: seq<T>, p: T -> bool)
    requires forall i :: 0 <= i < |s| ==> p(s[i])
    ensures Filter(s, p) == s
  {
    if s != [] {
      FilterKeepsAll(s[1..], p);
      assert [s[0]] + s[1..] == s;
    }
  }

  lemma {:induction false} CountFilter<T(!new)>(s: seq<T>, p: T -> bool)
    ensures Count(s, p) == |Filter(s, p)|
  {
    if s != [] {
      CountFilter(s[1..], p);
    }
  }

  /** `y` is produced by the join exactly when some element produces it. */
  lemma {:induction false} ConcatMapMember<T, U>(s: seq<T>, f: T -> seq<U>, y: U)
    ensures y in ConcatMap(s, f) <==> exists i :: 0 <= i < |s| && y in f(s[i])
  {
    if s != [] {
      ConcatMapMember(s[1..], f, y);
      if y in ConcatMap(s[1..], f) {
        var i :| 0 <= i < |s[1..]| && y in f(s[1..][i]);
        assert y in f(s[i + 1]);
      }
      if exists i :: 0 <= i < |s| && y in f(s[i]) {
        var i :| 0 <= i < |s| && y in f(s[i]);
        if i > 0 {
          assert s[1..][i - 1] == s[i];
        }
      }
    }
  }

  lemma {:induction false} ConcatMapEmpty<T, U>(s: seq<T>, f: T -> seq<U>)
    ensures ConcatMap(s, f) == [] <==> forall i :: 0 <= i < |s| ==> f(s[i]) == []
  {
    if s != [] {
      ConcatMapEmpty(s[1..], f);
      if forall i :: 0 <= i < |s[1..]| ==> f(s[1..][i]) == [] {
        if f(s[0]) == [] {
          forall i | 0 <= i < |s|
            ensures f(s[i]) == []
          {
            if i > 0 {
              assert s[i] == s[1..][i - 1];
            }
          }
        }
      } else {
        var i :| 0 <= i < |s[1..]| && f(s[1..][i]) != [];
        assert s[1..][i] == s[i + 1];
      }
    }
  }

  lemma {:induction false} ConcatMapAppend<T, U>(s: seq<T>, x: T, f: T -> seq<U>)
    ensures ConcatMap(s + [x], f) == ConcatMap(s, f) + f(x)
  {
    if s == [] {
      assert s + [x] == [x];
    } else {
      assert (s + [x])[1..] == s[1..] + [x];
      ConcatMapAppend(s[1..], x, f);
    }
  }

  /** Joins whose parts have equal lengths have equal lengths. */
  lemma {:induction false} ConcatMapLength<T, U, V>(s: seq<T>, f: T -> seq<U>, g: T -> seq<V>)
    requires forall i :: 0 <= i < |s| ==> |f(s[i])| == |g(s[i])|
    ensures |ConcatMap(s, f)| == |ConcatMap(s, g)|
  {
    if s != [] {
      ConcatMapLength(s[1..], f, g);
    }
  }

  /** A join producing one row per element has one row per element. */
  lemma {:induction false} ConcatMapUnits<T, U>(s: seq<T>, f: T -> seq<U>)
    requires forall i :: 0 <= i < |s| ==> |f(s[i])| == 1
    ensures |ConcatMap(s, f)| == |s|
  {
    if s != [] {
      ConcatMapUnits(s[1..], f);
    }
  }

  lemma ConcatMapSingleton<T, U>(x: T, f: T -> seq<U>)
    ensures ConcatMap([x], f) == f(x)
  {
    assert [x][1..] == [];
  }

  /** Replacing one element changes the joined multiset by exactly what that
      element contributed before and after. */
  lemma {:induction false} ConcatMapUpdate<T, U>(s: seq<T>, i: nat, x: T, f: T -> seq<U>)
    requires i < |s|
    ensures multiset(ConcatMap(s[i := x], f)) + multiset(f(s[i]))
         == multiset(ConcatMap(s, f)) + multiset(f(x))
  {
    var t := s[i := x];
    assert multiset(ConcatMap(t, f)) == multiset(f(t[0])) + multiset(ConcatMap(t[1..], f));
    assert multiset(ConcatMap(s, f)) == multiset(f(s[0])) + multiset(ConcatMap(s[1..], f));
    if i == 0 {
      assert t[1..] == s[1..];
      UnionSwap(multiset(ConcatMap(s[1..], f)), multiset(f(x)), multiset(f(s[0])));
    } else {
      assert t[0] == s[0] && t[1..] == s[1..][i - 1 := x] && s[1..][i - 1] == s[i];
      ConcatMapUpdate(s[1..], i - 1, x, f);
      UnionPrefix(multiset(f(s[0])), multiset(ConcatMap(t[1..], f)), multiset(ConcatMap(s[1..], f)),
                  multiset(f(s[i])), multiset(f(x)));
    }
  }

  lemma UnionSwap<T>(r: multiset<T>, a: multiset<T>, b: multiset<T>)
    ensures (a + r) + b == (b + r) + a
  {
    forall y
      ensures ((a + r) + b)[y] == ((b + r) + a)[y]
    {
    }
  }

  lemma UnionPrefix<T>(a: multiset<T>, t: multiset<T>, s: multiset<T>, o: multiset<T>, n: multiset<T>)
    requires t + o == s + n
    ensures (a + t) + o == (a + s) + n
  {
    forall y
      ensures ((a + t) + o)[y] == ((a + s) + n)[y]
    {
      assert (t + o)[y] == (s + n)[y];
    }
  }
}

=== FILE: text.dfy ===
/** String facts the room listing relies on: the case-insensitive substring
    test behind `ILIKE '%s%'` and the order behind `ORDER BY floor`.
    Case folding covers ASCII letters only; the order compares character
    codes one by one (the "C" collation). */
module Text {

  function Lower(c: char): char
  {
    if 'A' <= c <= 'Z' then (c as int + 32) as char else c
  }

  function Fold(s: string): (r: string)
    ensures |r| == |s|
    ensures forall i :: 0 <= i < |s| ==> r[i] == Lower(s[i])
  {
    seq(|s|, i requires 0 <= i < |s| => Lower(s[i]))
  }

  /** Whether `part` occurs in `s`, searched from the left. */
  predicate Contains(s: string, part: string)
    decreases |s|
  {
    (|part| <= |s| && s[..|part|] == part) || (s != [] && Contains(s[1..], part))
  }

  /** `part` occurs in `s` starting at index `i`. */
  predicate OccursAt(s: string, part: string, i: int)
  {
    0 <= i && i + |part| <= |s| && s[i..i + |part|] == part
  }

  /** A part placed between two strings occurs right after the first. */
  lemma OccursMiddle(x: string, part: string, y: string)
    ensures OccursAt(x + part + y, part, |x|)
  {
    assert (x + part + y)[|x|..|x| + |part|] == part;
  }

  /** `Contains` agrees with "some window of `s` is `part`". */
  lemma ContainsAt(s: string, part: string)
    ensures Contains(s, part) <==> exists i :: OccursAt(s, part, i)
  {
    if Contains(s, part) {
      ContainsFound(s, part);
    }
    if exists i :: OccursAt(s, part, i) {
      var i :| OccursAt(s, part, i);
      OccursContained(s, part, i);
    }
  }

  lemma {:induction false} ContainsFound(s: string, part: string)
    requires Contains(s, part)
    ensures exists i :: OccursAt(s, part, i)
    decreases |s|
  {
    if |part| <= |s| && s[..|part|] == part {
      assert OccursAt(s, part, 0);
    } else {
      ContainsFound(s[1..], part);
      var i :| OccursAt(s[1..], part, i);
      assert s[i + 1..i + 1 + |part|] == s[1..][i..i + |part|];
      assert OccursAt(s, part, i + 1);
    }
  }

  lemma {:induction false} OccursContained(s: string, part: string, i: int)
    requires OccursAt(s, part, i)
    ensures Contains(s, part)
    decreases |s|
  {
    if i > 0 {
      assert s[1..][i - 1..i - 1 + |part|] == s[i..i + |part|];
      OccursContained(s[1..], part, i - 1);
    }
  }

  /** `ILIKE '%' || part || '%'`: `part` occurs in `s` ignoring ASCII case. */
  predicate ContainsFold(s: string, part: string)
  {
    Contains(Fold(s), Fold(part))
  }

  /** Character-code lexicographic order: a prefix comes first. */
  predicate LexLe(a: string, b: string)
  {
    a == [] || (b != [] && (a[0] < b[0] || (a[0] == b[0] && LexLe(a[1..], b[1..]))))
  }

  lemma {:induction false} LexLeTotal(a: string, b: string)
    ensures LexLe(a, b) || LexLe(b, a)
  {
    if a != [] && b != [] && a[0] == b[0] {
      LexLeTotal(a[1..], b[1..]);
    }
  }

  lemma {:induction false} LexLeTransitive(a: string, b: string, c: string)
    requires LexLe(a, b) && LexLe(b, c)
    ensures LexLe(a, c)
  {
    if a != [] && a[0] == b[0] && b[0] == c[0] {
      LexLeTransitive(a[1..], b[1..], c[1..]);
    }
  }
}

=== FILE: wrappers.dfy ===
/** Typed outcomes shared by every handler of the inventory service.

    The handlers answer over HTTP; here each answer is a value. The three
    failure classes are the three status codes the handlers use:
    400 for a missing field, 404 when an update matched no row, and 500
    for a store error (and, in a few handlers, for a missing field too).
 */
module Wrappers {

  datatype Option<+T> = None | Some(value: T)

  /** The status class of a failed request. */
  datatype Failure =
    | BadRequest   // HTTP 400
    | NotFound     // HTTP 404
    | ServerError  // HTTP 500

  datatype Result<+R> = Ok(value: R) | Err(failure: Failure)

  /** Whether the database accepts the one statement a handler sends.
      `Failing` stands for every error the driver returns from the call
      itself: a lost connection, a statement it cannot prepare, and, for
      the updating statements, a violated constraint or a parameter the
      database cannot convert. */
  datatype Store = Available | Failing

  /** How the rows of an accepted query reach a handler: all of them, or a
      stream the database breaks off after `read` rows. A query that fails
      while it runs, say on a parameter the database cannot convert to an
      integer, is a stream broken before its first row. The query handlers
      read rows until there are no more and never ask the stream for its
      error, so a broken stream reads as a shorter result. */
  datatype Stream = Whole | BreaksAfter(read: nat)

  /** The rows a handler reads: the first rows the statement selects, all
      of them when the stream is whole. */
  function Received<T>(stream: Stream, rows: seq<T>): (r: seq<T>)
    ensures r <= rows
    ensures stream.Whole? ==> r == rows
    ensures stream.BreaksAfter? ==> |r| == if stream.read <= |rows| then stream.read else |rows|
  {
    match stream
    case Whole => rows
    case BreaksAfter(n) => if n <= |rows| then rows[..n] else rows
  }

  /** Nothing is read exactly when nothing is selected or the stream
      breaks before its first row; otherwise the first row read is the
      first row selected. */
  lemma ReceivedHead<T>(stream: Stream, rows: seq<T>)
    ensures Received(stream, rows) == [] <==> rows == [] || stream == BreaksAfter(0)
    ensures Received(stream, rows) != [] ==> Received(stream, rows)[0] == rows[0]
  {
  }

  /** A row read is a row the statement selects. */
  lemma ReceivedMember<T>(stream: Stream, rows: seq<T>, x: T)
    requires x in Received(stream, rows)
    ensures x in rows
  {
    var r := Received(stream, rows);
    var i :| 0 <= i < |r| && r[i] == x;
    assert rows[i] == x;
  }

  /** The table state after a command, with the command's result. */
  datatype Step<+S, +R> = Step(state: S, result: Result<R>)

  /** An empty query-string value means "absent". */
  function Given(s: string): (r: Option<string>)
    ensures r.None? <==> s == ""
    ensures r.Some? ==> r.value == s
  {
    if s == "" then None else Some(s)
  }
}
